=== FILE: README.md ===
# FlashMangas services, modelled in Dafny

FlashMangas is a browser manga reader. This project models its service layer:

- **services/api.ts** is the catalog and chapter client:
  - the CORS-relay fetch with direct fallback (`fetchWithProxy`);
  - the Jikan catalog client with its content-safety gate, single retry on HTTP 429 and serialising queue;
  - the Comick lookup of a title's id, with a local-storage cache;
  - the chapter list, which keeps one entry per chapter, prefers the Brazilian Portuguese upload and orders entries by `parseFloat` of the chapter number, highest first;
  - the resolution of page-image URLs.
- **services/store.ts** is the local-first user store: the profile, the simulated sign-in flows, favorites, reading history and per-manga comments.

Side effects become parameters and results:

- The network is a function from URL to reply (`net`).
- Local storage is a `map<string, Stored>` threaded through every store operation and returned updated.
- `Date.now()` and `new Date().toISOString()` are the parameters `now` and `isoNow`.
- The response times of queued catalog calls are inputs to the timing model.

Modules, in dependency order:

| module | file | contents |
|---|---|---|
| `Basics` | basics.dfy | `Option`, order-preserving sub-sequences |
| `Text` | text.dfy | `includes`, decimal rendering of integers, `join`, `split(c)[0]` |
| `UriEncoding` | uri_encoding.dfy | `encodeURIComponent` (UTF-8 percent-encoding, section 19.2.6.5 of ECMA-262) and its decoder |
| `Types` | types.dfy | the records of types.ts, plus the `Chapter` record api.ts builds |
| `ContentFilter` | content_filter.dfy | `isSafeContent` |
| `Http`, `Proxy` | proxy.dfy | replies, `fetchWithProxy` |
| `Catalog` | catalog.dfy | `fetchJikan` shaping and retry, the exported catalog endpoints |
| `CatalogQueue` | catalog_queue.dfy | the `jikanQueue` chain as a schedule of requests over time |
| `ChapterNumber` | chapter_number.dfy | `parseFloat` over exact reals, IEEE subtraction and the sort's reading of it |
| `Chapters` | chapters.dfy | the chapter map loop of `getChapters` and its sort |
| `LocalStorage`, `Store` | store.dfy | storage, and the user store with the guest profile kept immutable |
| `StoreAsWritten` | store.dfy | the user store with the guest profile as one shared mutable object (see Findings) |
| `Comick` | comick.dfy | `findComickId`, `getChapters`, `getChapterImages` |

Behaviours of the code that the model keeps exactly as written:

- **Relay rotation index:** it is never advanced (api.ts:10), so every call tries corsproxy.io first.
- **Throttled relay replies:** a 429 from a relay is handled like any other non-ok relay reply, namely by trying the next relay. The one-second pause before that is not modelled.
- **Chapter sources:** Comick is the only chapter source in api.ts, with no per-language fallback.
- **Duplicate chapter uploads:** the first Portuguese upload of a chapter wins; when there is none, the first upload of that chapter does.
- **Sort order:** non-increasing. Two labels such as "1" and "1.0" read as the same number, and the sort breaks ties only by its own stability.
- **Failure of the direct fetch:** on the Comick paths it is caught, and an empty result or `null` is returned.
- **Search status:** an empty status string is falsy, so it adds no `&status=` parameter, just like an absent status or "any" (api.ts:103).

## Model

| member | source | states |
|---|---|---|
| `Proxy.TryInOrder` | services/api.ts:15-37 | Targets are tried in order, each at most once. Every target before the last one tried answered not-ok. An ok target reply ends the attempts and is returned. When every target failed, the direct URL is requested last and its reply is returned, whatever it is. |
| `Proxy.FetchWithProxy` | services/api.ts:12-38 | At most one request per relay plus one direct request (at most 3). Request k goes to relay k in rotation order. The first ok relay reply is returned. Otherwise the direct request of the raw URL comes last and its reply is final. |
| `Proxy.RotationOrderIsFixed` | services/api.ts:5-16 | Since the rotation start never moves, corsproxy.io is always tried first and allorigins second, and relay positions repeat with period 2. |
| `Proxy.CorsProxyTakesRawTarget` | services/api.ts:19-23 | corsproxy.io receives the target URL unencoded, appended to its prefix. |
| `Proxy.AllOriginsTakesEncodedTarget` | services/api.ts:13-20 | allorigins receives the URL-encoded target, which decodes back to exactly the target. |
| `Proxy.FirstOkRelayWins` | services/api.ts:15-26 | If relay j is the first ok one, the requests are exactly relays 0..j, the direct URL is never requested, and relay j's reply is returned. |
| `UriEncoding.EncodeURIComponent` | services/api.ts:13 | The encoding consists only of unreserved characters, `%` and hexadecimal digits. |
| `UriEncoding.DecodeEncodeRoundTrip` | services/api.ts:13 | Decoding the encoding of any string, including characters outside the BMP, gives the string back. |
| `UriEncoding.EncodeInjective` | services/api.ts:126 | Distinct titles give distinct encoded search queries. |
| `Text.Includes` | services/api.ts:46 | `s.includes(needle)` holds exactly when the needle occurs at some position of `s`. |
| `Text.BeforeFirst` | services/store.ts:43 | `split(c)[0]` is a prefix of the text that contains no `c` and stops right before the first `c`, or is the whole text when there is none. |
| `ContentFilter.IsSafeContent` | services/api.ts:44-53 | Every entry is admitted when NSFW content is allowed. Otherwise an entry is refused exactly when its rating contains "Rx" or "Hentai" somewhere, or one of its genre names is exactly "Hentai", "Erotica" or "Doujinshi". |
| `ContentFilter.AnyProhibited` | services/api.ts:47-50 | The genre scan finds a prohibited name exactly when some genre's name is in the prohibited list. |
| `ContentFilter.RxRatingRefused` | services/api.ts:46 | A rating of "Rx - Hentai" is refused. |
| `ContentFilter.GenreCases` | services/api.ts:47-50 | An "Erotica" genre is refused; an "Action" genre alone is admitted. |
| `ContentFilter.GenreMatchIsExact` | services/api.ts:46-50 | A lower-case "hentai" genre with a "PG-13" rating is admitted. |
| `Catalog.SafeItems` | services/api.ts:76-77 | The filtered list is an order-preserving sub-sequence of the reply. Each safe entry keeps its multiplicity and each unsafe entry is gone. |
| `Catalog.Shape` | services/api.ts:76-78 | A list stays a list holding exactly its safe entries in order. A single entry stays itself when safe and becomes `null` exactly when unsafe. |
| `Catalog.FetchJikan` | services/api.ts:55-86 | One request to the endpoint, or two when the first reply is a 429 and never more. The outcome is settled on the last reply. A resolved call always rests on an ok reply. |
| `Catalog.RetryMatchesImmediate` | services/api.ts:62-80 | A 429 followed by a reply that is not a 429 gives the same outcome as if that reply had come first. |
| `Catalog.SecondThrottleFails` | services/api.ts:62-65 | Two 429s in a row reject the call with status 429 after exactly two requests. |
| `Catalog.ListingsKeepOnlySafeEntries` | services/api.ts:88-98 | The trending, top and manhwa listings are filtered: an entry is returned exactly when it was in the reply and is safe. |
| `Catalog.SearchParams` | services/api.ts:100-108 | A search always sends the query and a page size of 25. It sends genres exactly when some are given. It sends a status exactly when one is given that is neither empty nor "any". It sends the safe-search pair exactly when NSFW is not allowed. Each parameter carries the value sent under its key: the query as typed, `25`, the genre ids joined by `,`, the status as given, `sfw=true` and `genres_exclude=12,49,28`. |
| `Catalog.SearchRequest` | services/api.ts:100-109 | The endpoint built by string appending is the `?k=v&...` rendering of the search's parameter list, so it carries `&status=` exactly when a non-empty status other than "any" is given. The filter uses the NSFW flag of the filters (false without filters). |
| `Catalog.MangaByIdRequest` | services/api.ts:111-113 | The lookup by id bypasses the safety filter: every entry and every list comes back unfiltered. |
| `Catalog.MangaByIdInjective` | services/api.ts:111-113 | Distinct ids are looked up at distinct endpoints. |
| `CatalogQueue.Schedule` | services/api.ts:55-86 | Queued tasks send their requests in arrival order, one task at a time, each at least 1000 ms after the previous request. The first request leaves at least 1000 ms after the queue is free. Task `first + t` sends exactly two requests when its first reply was throttled and exactly one otherwise, and no task outside the queued ones sends any. |
| `CatalogQueue.RequestsSpreadOut` | services/api.ts:57-59 | The n-th request leaves at least (n - m) seconds after the m-th. |
| `CatalogQueue.QueuedCallsSpan` | services/api.ts:57-59 | When more than d calls are queued together, the last request leaves at least d seconds after the first (five calls span at least four seconds). |
| `CatalogQueue.EveryTaskIsServed` | services/api.ts:81-84 | Every queued task sends its request, whatever happened to the tasks before it. |
| `ChapterNumber.LeadingWhitespaceIgnored` | services/api.ts:190 | `parseFloat` ignores leading white space and line terminators. |
| `ChapterNumber.ParseFloat` | services/api.ts:190 | `parseFloat` skips leading white space and an optional sign. It reads NaN exactly when neither `Infinity` nor a decimal literal follows, and an infinity exactly when `Infinity` follows, negative after a minus sign. Otherwise it reads the literal's value, negated after a minus sign. |
| `ChapterNumber.ParseWholeNumber` | services/api.ts:190 | A whole-number label reads as that number, also when followed by text that cannot continue a number. |
| `ChapterNumber.ParseDecimal` | services/api.ts:190 | A label `w.f` reads as the exact decimal value of its digits. |
| `ChapterNumber.ParseHalfChapter` | services/api.ts:190 | "10.5" reads as 10.5. |
| `ChapterNumber.ParseNoNumber` | services/api.ts:190 | A label without a leading number ("Extra") reads as NaN. |
| `ChapterNumber.Difference` | services/api.ts:190 | The subtraction gives NaN exactly when an operand is NaN or both are infinities of the same sign. |
| `ChapterNumber.DifferenceSign` | services/api.ts:190 | For non-NaN keys, the sign of `b - a` is the independent numeric order of `a` and `b`. |
| `ChapterNumber.BelowIsTotal` | services/api.ts:190 | Two non-NaN keys are equal or one is below the other. |
| `ChapterNumber.BelowAsymmetric` | services/api.ts:190 | No two keys are each below the other. |
| `ChapterNumber.BelowIsTransitive` | services/api.ts:190 | The order the comparator induces on keys is transitive, so with asymmetry and totality it is a strict total order on non-NaN keys that the sort can rely on. |
| `Chapters.ToChapter` | services/api.ts:168-175 | An entry takes its id, chapter string and language from the upload it was built from. |
| `Chapters.FirstMatch` | services/api.ts:177-186 | Finds the first upload carrying a given chapter key (optionally only among Portuguese uploads), or establishes that there is none. |
| `Chapters.Preferred` | services/api.ts:177-186 | A chapter has a preferred upload exactly when it has any upload, and that upload carries the chapter key. |
| `Chapters.AbsorbPreserves` | services/api.ts:162-187 | One loop iteration keeps the invariant of the map. There is one entry per key, built from the key's preferred upload among the uploads seen so far. There is an entry for every key seen. Entries are in order of first arrival. |
| `Chapters.Reconcile` | services/api.ts:155-187 | The map after the loop has one entry per chapter key. Each entry is built from the first Portuguese upload of its key, or else the first upload. Every key that some labelled upload carries has an entry. Entries appear in the order the keys first arrived. Uploads without a key contribute nothing, and there are no more entries than uploads. |
| `Chapters.PortugueseWhenAvailable` | services/api.ts:177-186 | An entry is Portuguese exactly when its chapter has some Portuguese upload. |
| `Chapters.PortugueseWinsEitherOrder` | services/api.ts:177-186 | An English and a Portuguese upload of chapter "1" give the Portuguese entry, in either arrival order. |
| `Chapters.SortChapters` | services/api.ts:190 | The sorted list is a permutation of the map's entries. |
| `Chapters.SortDescending` | services/api.ts:190 | When every label reads as a number, the sorted list is in non-increasing numeric order. |
| `Chapters.SortKeepsLabelsUnique` | services/api.ts:190 | Sorting keeps one entry per chapter key. |
| `Comick.Slug` | services/api.ts:121 | The cache-key slug consists only of `a-z` and `0-9` and is no longer than the title. |
| `Comick.SlugIdempotent` | services/api.ts:121 | Deriving the slug twice changes nothing. |
| `Comick.SlugIgnoresCase` | services/api.ts:121 | Titles that differ only in ASCII letter case share a cache entry. |
| `Comick.SlugIgnoresDropped` | services/api.ts:121 | Spaces, punctuation and other dropped characters may be inserted anywhere in a title without changing its cache entry. |
| `Comick.CacheKeyIsOwnFamily` | services/api.ts:121 | No id cache key is the profile key or a comment-list key. |
| `Comick.FindComickId` | services/api.ts:119-139 | A cached non-empty id is returned without any request. Otherwise the search goes through the relays. An id is found exactly when the reply is a hit array with at least one hit; it is the first hit's id, and it is cached. A failure, an unparseable body or no hits give no id and leave storage as it was. |
| `Comick.SecondLookupIsCached` | services/api.ts:120-133 | Once a non-empty id was found, the next lookup of the title makes no request and returns the same id, whatever the network does. |
| `Comick.LookupKeepsUserData` | services/api.ts:121-131 | An id lookup leaves the profile and every comment list as they were. |
| `Comick.FeedChapters` | services/api.ts:148-152 | Uploads are read exactly when the feed reply parsed to an object carrying `chapters`, and they are that `chapters` list. |
| `Comick.GetChapters` | services/api.ts:141-196 | The storage after the call is the one the id lookup left. With no id, a failed feed or no `chapters`, the list is empty. Otherwise the list holds exactly the reconciled entries. |
| `Comick.ChapterListSpec` | services/api.ts:141-196 | The returned list has one entry per chapter key, and each entry is built from its key's preferred upload. Every key present in the feed has an entry. When every label reads as a number, the list runs from the highest chapter to the lowest. |
| `Comick.ImageUrl` | services/api.ts:205-208 | An image resolves to its non-empty `url` if it has one. Otherwise it resolves to the image host plus its non-empty `b2key`. It is empty exactly when it has neither. |
| `Comick.PageUrls` | services/api.ts:204-209 | The pages are the non-empty resolved URLs in image order: one per usable image, none for the others, never an empty string. |
| `Comick.PageUrlsArePerImage` | services/api.ts:205-209 | The pages of a list are the first image's pages followed by the pages of the rest. |
| `Comick.PageUrlsAppend` | services/api.ts:205-209 | The pages of two concatenated image lists are the pages of each, concatenated. |
| `Comick.GetChapterImages` | services/api.ts:198-216 | When the reply parsed to an object with `chapter.images`, the result is those images' page URLs; in every other case (failed request, unparseable body, no `chapter` or no `images`) it is empty. No URL is an empty string. |
| `Store.GetUser` | services/store.ts:19-27 | With no stored profile, the guest profile is returned. With one, every field the stored profile carries wins and every field it lacks comes from the guest profile, so a profile lacking favorites or history reads back with them empty. |
| `Store.Merge` | services/store.ts:24 | The spread `{ ...defaults, ...stored }`: every field present in the stored record is taken from it, every absent one from the defaults. |
| `Store.SaveUser` | services/store.ts:29-32 | The profile key is written and every other key is left exactly as it was. |
| `Store.SaveThenGet` | services/store.ts:19-32 | A saved profile reads back unchanged. |
| `Store.OldProfileGainsNewFields` | services/store.ts:23-24 | A profile stored without favorites and history keeps its stored user name and gains empty favorites and history. |
| `Store.LoginUser` | services/store.ts:36-52 | Email sign-in takes the user name before the first `@`, marks the profile signed in with the email provider, and sets the join time and avatar seed. Every other field of the previous profile (description, premium, NSFW, data saver, notifications, favorites, history) is kept. The saved profile reads back as the returned one, and no storage key other than the profile's changes. |
| `Store.LoginNameExample` | services/store.ts:43 | "ana@mail.com" signs in as "ana". |
| `Store.SignupUser` | services/store.ts:54-69 | Sign-up uses the chosen name for both the user name and the avatar seed, and marks the profile signed in with the email provider and a join time. Every other field of the previous profile is kept. The saved profile reads back as the returned one, and no storage key other than the profile's changes. |
| `Store.GoogleLogin` | services/store.ts:71-87 | Google sign-in gives the fixed Google identity, which is signed in and never premium. Every other field of the previous profile (description, NSFW, data saver, notifications, favorites, history) is kept. The saved profile reads back as the returned one, and no storage key other than the profile's changes. |
| `Store.LogoutUser` | services/store.ts:89-92 | Sign-out removes the profile key and leaves every other key as it was. |
| `Store.LogoutRestoresGuest` | services/store.ts:89-92 | After sign-out the guest profile is read, whatever was done before. |
| `Store.Without` | services/store.ts:99 | Removing an id leaves no copy of it. Every other id keeps its multiplicity, and the order is kept. |
| `Store.Toggle` | services/store.ts:98-102 | The id is a favorite afterwards exactly when it was not one before. Every other id keeps its multiplicity. An added id goes at the end, and a removal keeps the order. |
| `Store.ToggleTwice` | services/store.ts:96-104 | Toggling a non-favorite twice restores the list. |
| `Store.ToggleFavorite` | services/store.ts:96-104 | The stored favorites become the toggled favorites, nothing else in the profile changes, and no storage key other than the profile's changes. |
| `Store.FindVisit` | services/store.ts:109 | `findIndex` gives the first entry for the chapter, or establishes there is none. |
| `Store.RecordVisit` | services/store.ts:109-124 | The new visit is first, and at most 50 entries remain. The older entries follow in their order, without the first earlier entry for the same chapter, cut to fit. |
| `Store.MoveToFront` | services/store.ts:109-121 | `splice` then `unshift`: the visit is first, followed by the older entries in order without the first earlier entry for the same chapter, so the length grows by one exactly when the chapter was not yet in the history. |
| `Store.VisitKeepsOrder` | services/store.ts:109-124 | After a visit, the entries behind the new one are some of the earlier entries, in their earlier order: none is invented and none is reordered. |
| `Basics.SubsequenceDropOne` | services/store.ts:119-121 | Removing one entry with `splice(i, 1)` leaves the others in order. |
| `Store.VisitKeepsDistinct` | services/store.ts:109-124 | A history with one entry per chapter keeps that property after a visit. |
| `Store.AddToHistory` | services/store.ts:106-126 | The stored history becomes the history with the visit recorded, nothing else in the profile changes, and no storage key other than the profile's changes. |
| `Store.GetLocalComments` | services/store.ts:128-131 | A manga's stored comment list is returned as stored; a manga without one has none. |
| `Store.AddLocalComment` | services/store.ts:133-147 | The list gains exactly one comment, in front. It carries the text, the current user's name and avatar, no likes, and the given time and id. The stored list reads back as the returned one, and no storage key other than that manga's comment list changes. |
| `Store.CommentKeysDistinct` | services/store.ts:129 | Distinct mangas have distinct comment keys, and no comment key is the profile key. |
| `Store.CommentTouchesOnlyItsManga` | services/store.ts:133-147 | Commenting leaves the profile and every other manga's comments as they were. |
| `StoreAsWritten.GetUserShared` | services/store.ts:19-27 | With no stored profile, `getUser` returns the guest object itself. With a stored profile, the stored fields are spread over the current guest object, so every field the stored record lacks comes from the guest object as it is now. |
| `StoreAsWritten.ToggleFavoriteShared` | services/store.ts:96-104 | As written, the stored favorites are toggled as in the corrected store. With nothing stored, the guest object itself gets the toggled favorites. With a stored profile lacking favorites, the guest's array gains the id when it is added, and is kept when the id is removed. With a stored profile carrying favorites, the guest object is unchanged. |
| `StoreAsWritten.AddToHistoryShared` | services/store.ts:106-126 | As written, the stored history records the visit as in the corrected store. With nothing stored, the guest object gets the recorded history. With a stored profile lacking history, the guest object changes only in its history, which becomes exactly the spliced-and-unshifted array (`MoveToFront`), not cut to 50; the recorded history is its first 50 entries. With a stored profile carrying history, the guest object is unchanged. |
| `StoreAsWritten.LogoutShared` | services/store.ts:89-92 | Sign-out removes the stored profile but leaves the guest object as it is. |
| `StoreAsWritten.GuestFavoriteSurvivesLogout` | services/store.ts:96-104 | A guest who favorites manga 5 and signs out still sees manga 5 among the guest profile's favorites, so that profile is no longer the default. |
| `StoreAsWritten.GuestHistorySurvivesLogout` | services/store.ts:106-126 | A guest who reads a chapter and signs out still sees that visit in the guest profile's history. |
| `StoreAsWritten.SharedAgreesWhenProfileComplete` | services/store.ts:96-126 | While a complete profile is stored and the guest object is pristine, the code as written behaves exactly like the corrected store. |

## Left out

- Time: the sleeps (api.ts:28, 59, 63; store.ts:38, 55, 72) are not modelled as waiting. The catalog queue's timing is a schedule over response times given as inputs. The one-second pause after a relay's 429 is omitted.
- Promises and concurrency: callers that interleave other work with the queue are not modelled. The queue is a sequence of tasks in arrival order.
- `console.error` logging and the `user-update` event that `saveUser` and `logoutUser` dispatch have no effect on the modelled state.
- JSON: `response.json()`, `JSON.parse` and `JSON.stringify` are represented by typed bodies and typed storage values. A malformed profile or comment list in storage, or a stored value of the wrong kind under a key, is treated as absent. A `null` body is treated like an unparseable one.
- A Jikan body without a `data` field is not modelled. The code rejects it while filtering, or resolves to `undefined` when NSFW content is allowed; in the model every envelope carries `data`.
- `Store.GetUser`: a stored profile in JSON whose fields have the wrong types is not modelled, because the stored profile is typed.
- `Comick.FindComickId`: a search hit without `hid` (which the code would cache as the string "undefined") is not modelled; every hit carries an id.
- `Comick.GetChapters`: a `chap` field holding a JSON number rather than a string is not modelled.
- `Chapters.SortDescending`: the order is stated only when every label reads as a number. With NaN labels the comparator is inconsistent and the engine's order is implementation-defined. The model then still sorts by one fixed stable insertion order, without a stated order property.
- `Chapters.SortChapters`: ties keep the model's insertion order, and nothing is stated about which of two equal chapters comes first.
- `ChapterNumber.ParseWholeNumber`: `parseFloat` is exact. Rounding to binary64 (including overflow of very long exponents to Infinity) is not modelled. Labels that differ only beyond about 17 significant digits, such as "1" and "1.00000000000000001", round to the same binary64 value in JavaScript, so the comparator returns 0 and the stable sort keeps their arrival order. The exact model orders them by value instead, so such labels may be ordered differently from the program.
- `UriEncoding.EncodeURIComponent`: strings are sequences of Unicode scalar values. The lone UTF-16 surrogates for which JavaScript's `encodeURIComponent` throws cannot occur.
- Numbers are rendered as decimal integers in three places: the genre ids of a search (`Catalog.GenreIds`), the manga id in `/manga/${id}` (`Catalog.MangaByIdRequest`), and the manga id in the comment key (`Store.CommentsKey`). JavaScript's exponential notation for ids of 10^21 or more is not modelled. Ids are integers in the model, so the rendering of non-integer ids is not modelled either.
- The MangaDex functions that App.tsx imports do not exist in services/api.ts and are not part of this model. App.tsx (views and routing) is not part of this model either.

## Findings

| source | as written | input that shows it | evidently intended | confidence | as-written member | corrected member |
|---|---|---|---|---|---|---|
| services/store.ts:96-104 | With nothing stored, `getUser()` returns the module's `defaultUser` object itself. `toggleFavorite` then pushes onto, or reassigns, that object's `favorites`, so the guest profile itself changes. | empty storage; `toggleFavorite(5)`; `logoutUser()`; `getUser().favorites` is `[5]` | toggling changes only the stored profile, and after sign-out the guest profile has no favorites | not executed | `StoreAsWritten.ToggleFavoriteShared`, `StoreAsWritten.GuestFavoriteSurvivesLogout` | `Store.ToggleFavorite`, `Store.LogoutRestoresGuest` |
| services/store.ts:106-126 | With nothing stored, `addToHistory` rewrites `defaultUser.history`. With a stored profile lacking `history`, `splice` and `unshift` change the array shared with `defaultUser`. | empty storage; `addToHistory(1, "c1", "t", "1")`; `logoutUser()`; `getUser().history` holds the visit | recording a visit changes only the stored profile, and after sign-out the guest profile has no history | not executed | `StoreAsWritten.AddToHistoryShared`, `StoreAsWritten.GuestHistorySurvivesLogout` | `Store.AddToHistory`, `Store.LogoutRestoresGuest` |

=== FILE: basics.dfy ===
/** Small generic vocabulary shared by every other module: an optional value
    (the source's `undefined`/`null`) and order-preserving sub-sequences. */
module Basics {

  /** A value that may be absent: JavaScript's `undefined` or `null`. */
  datatype Option<+T> = None | Some(value: T)

  /** `a` is obtained from `b` by deleting elements, keeping the order of the
      rest. Each step either matches the heads or skips an element of `b`. */
  predicate IsSubsequence<T(==)>(a: seq<T>, b: seq<T>)
    decreases |b|
  {
    |a| <= |b| &&
    (|a| == 0
     || (a[0] == b[0] && IsSubsequence(a[1..], b[1..]))
     || IsSubsequence(a, b[1..]))
  }

  /** Every element of a sub-sequence occurs in the sequence it came from. */
  lemma {:induction false} SubsequenceMembers<T>(a: seq<T>, b: seq<T>)
    requires IsSubsequence(a, b)
    ensures forall x :: x in a ==> x in b
    decreases |b|
  {
    if |a| == 0 {
    } else if a[0] == b[0] && IsSubsequence(a[1..], b[1..]) {
      SubsequenceMembers(a[1..], b[1..]);
      forall x | x in a ensures x in b {
        if x != a[0] {
          assert x in a[1..];
        }
      }
    } else {
      SubsequenceMembers(a, b[1..]);
      forall x | x in a ensures x in b {
        assert x in b[1..];
      }
    }
  }

  /** Any sequence is a sub-sequence of itself. */
  lemma {:induction false} SubsequenceReflexive<T>(a: seq<T>)
    ensures IsSubsequence(a, a)
    decreases |a|
  {
    if |a| > 0 {
      SubsequenceReflexive(a[1..]);
    }
  }

  /** Deleting the element at `k` leaves a sub-sequence. */
  lemma {:induction false} SubsequenceDropOne<T>(b: seq<T>, k: nat)
    requires k < |b|
    ensures IsSubsequence(b[..k] + b[k + 1..], b)
    decreases k
  {
    var a := b[..k] + b[k + 1..];
    if k == 0 {
      assert a == b[1..];
      SubsequenceReflexive(b[1..]);
    } else {
      SubsequenceDropOne(b[1..], k - 1);
      assert a[0] == b[0];
      assert a[1..] == b[1..][..k - 1] + b[1..][k..];
    }
  }

  /** Dropping the tail of a sub-sequence keeps it a sub-sequence. */
  lemma {:induction false} SubsequencePrefix<T>(a: seq<T>, b: seq<T>, k: nat)
    requires IsSubsequence(a, b)
    requires k <= |a|
    ensures IsSubsequence(a[..k], b)
    decreases |b|
  {
    if k == 0 {
    } else if a[0] == b[0] && IsSubsequence(a[1..], b[1..]) {
      SubsequencePrefix(a[1..], b[1..], k - 1);
      assert a[..k][1..] == a[1..][..k - 1];
    } else {
      SubsequencePrefix(a, b[1..], k);
    }
  }
}

=== FILE: catalog.dfy ===
/** The Jikan catalog client of services/api.ts: `fetchJikan`'s response
    shaping and single retry, and the endpoints the exported listing, search
    and lookup functions ask it for. */
module Catalog {
  import opened Basics
  import opened Text
  import opened Types
  import opened Http
  import opened ContentFilter

  const JikanBase: string := "https://api.jikan.moe/v4"

  /** The `data` field of a Jikan envelope: a list or a single entry. */
  datatype Payload = Many(items: seq<JikanManga>) | One(item: JikanManga)

  /** A response body: the parsed envelope, or a body `response.json()`
      cannot parse. */
  datatype JikanBody = Envelope(data: Payload) | Unparseable

  /** What a caller receives: the filtered list, or the entry (`null` when
      it was filtered out). */
  datatype Shaped = ShapedMany(items: seq<JikanManga>) | ShapedOne(item: Option<JikanManga>)

  /** Why the promise `fetchJikan` returns is rejected. */
  datatype Failure = NetworkFailure | HttpFailure(status: int) | ParseFailure

  datatype Outcome = Resolved(value: Shaped) | Rejected(failure: Failure)

  /** One call to the catalog: its outcome and the URLs it requested. */
  datatype CatalogCall = CatalogCall(outcome: Outcome, requests: seq<string>)

  /** `data.data.filter(item => isSafeContent(item, allowNsfw))`. */
  function SafeItems(items: seq<JikanManga>, allowNsfw: bool): (r: seq<JikanManga>)
    ensures IsSubsequence(r, items)
    ensures forall m :: multiset(r)[m] == if IsSafeContent(m, allowNsfw) then multiset(items)[m] else 0
    decreases |items|
  {
    if |items| == 0 then []
    else
      var rest := SafeItems(items[1..], allowNsfw);
      assert items == [items[0]] + items[1..];
      if IsSafeContent(items[0], allowNsfw) then
        assert ([items[0]] + rest)[1..] == rest;
        [items[0]] + rest
      else rest
  }

  /** The shaping step: a list keeps exactly its safe entries in order; a
      single entry is kept when safe and becomes `null` otherwise. */
  function Shape(p: Payload, allowNsfw: bool): (r: Shaped)
    ensures p.Many? <==> r.ShapedMany?
    ensures p.Many? ==> r.items == SafeItems(p.items, allowNsfw)
    ensures p.One? ==> (r.item == Some(p.item) <==> IsSafeContent(p.item, allowNsfw))
    ensures p.One? ==> (r.item.None? <==> !IsSafeContent(p.item, allowNsfw))
  {
    match p
    case Many(items) => ShapedMany(SafeItems(items, allowNsfw))
    case One(item) => ShapedOne(if IsSafeContent(item, allowNsfw) then Some(item) else None)
  }

  /** Handling of one response that is not a 429. */
  function Settle(reply: Reply<JikanBody>, allowNsfw: bool): Outcome
  {
    match reply
    case NetworkError => Rejected(NetworkFailure)
    case Response(status, body) =>
      if !IsOkStatus(status) then Rejected(HttpFailure(status))
      else match body
        case Unparseable => Rejected(ParseFailure)
        case Envelope(data) => Resolved(Shape(data, allowNsfw))
  }

  /** The body of a queued `fetchJikan(endpoint, allowNsfw)` task, given the
      reply to the first request and the reply the retry would get. A 429 is
      retried exactly once (after a pause); anything else is final. */
  function FetchJikan(endpoint: string, allowNsfw: bool, first: Reply<JikanBody>, retry: Reply<JikanBody>): (c: CatalogCall)
    ensures 1 <= |c.requests| <= 2
    ensures forall k :: 0 <= k < |c.requests| ==> c.requests[k] == JikanBase + endpoint
    ensures |c.requests| == 2 <==> (first.Response? && first.status == TooManyRequests)
    ensures |c.requests| == 1 ==> c.outcome == Settle(first, allowNsfw)
    ensures |c.requests| == 2 ==> c.outcome == Settle(retry, allowNsfw)
    ensures c.outcome.Resolved? ==> IsOk(if |c.requests| == 1 then first else retry)
  {
    var url := JikanBase + endpoint;
    if first.Response? && first.status == TooManyRequests then
      CatalogCall(Settle(retry, allowNsfw), [url, url])
    else
      CatalogCall(Settle(first, allowNsfw), [url])
  }

  /** A throttled request followed by a retry that is not itself throttled
      gives the same outcome as if that reply had come at once. */
  lemma RetryMatchesImmediate(endpoint: string, allowNsfw: bool, body: JikanBody, reply: Reply<JikanBody>, unused: Reply<JikanBody>)
    requires !(reply.Response? && reply.status == TooManyRequests)
    ensures FetchJikan(endpoint, allowNsfw, Response(TooManyRequests, body), reply).outcome
         == FetchJikan(endpoint, allowNsfw, reply, unused).outcome
  {
  }

  /** Two throttled replies in a row reject the call with the 429; there is
      no third request. */
  lemma SecondThrottleFails(endpoint: string, allowNsfw: bool, b1: JikanBody, b2: JikanBody)
    ensures FetchJikan(endpoint, allowNsfw, Response(TooManyRequests, b1), Response(TooManyRequests, b2))
         == CatalogCall(Rejected(HttpFailure(TooManyRequests)), [JikanBase + endpoint, JikanBase + endpoint])
  {
  }

  // ---------------------------------------------------------------------
  // Endpoints

  /** What an exported function hands to `fetchJikan`. */
  datatype CatalogRequest = CatalogRequest(endpoint: string, allowNsfw: bool)

  /** `getTrendingManga`, `getTopManga`, `getManhwa`: fixed listings, filtered
      with the default `allowNsfw = false`. */
  const TrendingRequest: CatalogRequest := CatalogRequest("/top/manga?filter=publishing&limit=25&sfw=true", false)
  const TopRequest: CatalogRequest := CatalogRequest("/top/manga?filter=bypopularity&limit=25&sfw=true", false)
  const ManhwaRequest: CatalogRequest := CatalogRequest("/manga?type=manhwa&order_by=popularity&sort=desc&limit=25&sfw=true", false)

  /** The fixed listings are filtered: what they return is exactly the safe
      part of the reply, in order. */
  lemma ListingsKeepOnlySafeEntries(items: seq<JikanManga>)
    ensures !TrendingRequest.allowNsfw && !TopRequest.allowNsfw && !ManhwaRequest.allowNsfw
    ensures forall m :: m in Shape(Many(items), TrendingRequest.allowNsfw).items <==> m in items && IsSafeContent(m, false)
  {
    var r := SafeItems(items, false);
    forall m ensures m in r <==> m in items && IsSafeContent(m, false) {
      assert m in r <==> multiset(r)[m] > 0;
      assert m in items <==> multiset(items)[m] > 0;
    }
  }

  /** Query parameters appended when NSFW content is not allowed. */
  const SafeSearchSuffix: string := "&sfw=true&genres_exclude=12,49,28"

  /** `searchJikan(query, filters)`: the search endpoint, assembled by
      appending optional parameters, and the NSFW flag (false without
      filters). */
  function SearchRequest(query: string, filters: Option<SearchFilters>): (r: CatalogRequest)
    ensures r.endpoint == RenderQuery("/manga", SearchParams(query, filters))
    ensures r.allowNsfw <==> (filters.Some? && filters.value.nsfw)
  {
    var allowNsfw := filters.Some? && filters.value.nsfw;
    var url := "/manga?q=" + query + "&limit=25" + GenreSuffix(filters) + StatusSuffix(filters);
    SearchEndpointRenders(query, filters);
    CatalogRequest(url + (if !allowNsfw then SafeSearchSuffix else ""), allowNsfw)
  }

  /** The `&genres=` part, present when the filters list genres. */
  function GenreSuffix(filters: Option<SearchFilters>): string
  {
    if filters.Some? && |filters.value.genres| > 0
    then "&genres=" + Join(GenreIds(filters.value.genres), ",") else ""
  }

  /** The filters name a status to search for: one is given, and it is
      neither empty (a falsy string in TypeScript) nor "any". */
  predicate StatusGiven(filters: Option<SearchFilters>)
  {
    filters.Some? && filters.value.status.Some? && filters.value.status.value != "" && filters.value.status.value != "any"
  }

  /** The `&status=` part, present exactly when a status is given. */
  function StatusSuffix(filters: Option<SearchFilters>): string
  {
    if StatusGiven(filters) then "&status=" + filters.value.status.value else ""
  }

  function GenreIds(ids: seq<int>): (r: seq<string>)
    ensures |r| == |ids| && forall k :: 0 <= k < |ids| ==> r[k] == IntToString(ids[k])
  {
    seq(|ids|, k requires 0 <= k < |ids| => IntToString(ids[k]))
  }

  /** The query parameters a search can carry. */
  datatype Key = Query | Limit | Genres | Status | Sfw | GenresExclude
  {
    function Name(): string
    {
      match this
      case Query => "q"
      case Limit => "limit"
      case Genres => "genres"
      case Status => "status"
      case Sfw => "sfw"
      case GenresExclude => "genres_exclude"
    }
  }

  datatype Param = Param(key: Key, value: string)

  /** Some parameter of `ps` has key `key`. */
  predicate HasKey(ps: seq<Param>, key: Key)
  {
    exists k :: 0 <= k < |ps| && ps[k].key == key
  }

  lemma HasKeyAppend(a: seq<Param>, b: seq<Param>, key: Key)
    ensures HasKey(a + b, key) <==> HasKey(a, key) || HasKey(b, key)
  {
    if HasKey(a + b, key) {
      var k :| 0 <= k < |a + b| && (a + b)[k].key == key;
      if k >= |a| {
        assert b[k - |a|].key == key;
      }
    }
    if HasKey(a, key) {
      var k :| 0 <= k < |a| && a[k].key == key;
      assert (a + b)[k].key == key;
    }
    if HasKey(b, key) {
      var k :| 0 <= k < |b| && b[k].key == key;
      assert (a + b)[|a| + k].key == key;
    }
  }

  lemma HasKeyOne(p: Param, key: Key)
    ensures HasKey([p], key) <==> p.key == key
  {
    if p.key == key {
      assert [p][0].key == key;
    }
  }

  lemma HasKeyTwo(p: Param, q: Param, key: Key)
    ensures HasKey([p, q], key) <==> p.key == key || q.key == key
  {
    if p.key == key {
      assert [p, q][0].key == key;
    }
    if q.key == key {
      assert [p, q][1].key == key;
    }
  }

  /** Which keys each optional part of a search contributes. */
  lemma SearchPartKeys(filters: Option<SearchFilters>, key: Key)
    ensures HasKey(GenreParams(filters), key) <==> key == Genres && filters.Some? && |filters.value.genres| > 0
    ensures HasKey(StatusParams(filters), key) <==> key == Status && StatusGiven(filters)
    ensures HasKey(SafeParams(filters), key) <==> (key == Sfw || key == GenresExclude) && !(filters.Some? && filters.value.nsfw)
  {
    var g := GenreParams(filters);
    var st := StatusParams(filters);
    var sf := SafeParams(filters);
    if |g| > 0 {
      HasKeyOne(g[0], key);
      assert g == [g[0]];
    }
    if |st| > 0 {
      HasKeyOne(st[0], key);
      assert st == [st[0]];
    }
    if |sf| > 0 {
      HasKeyTwo(sf[0], sf[1], key);
      assert sf == [sf[0], sf[1]];
    }
  }

  /** A key is in the four parts joined exactly when it is in one of them. */
  lemma HasKeyOfFour(a: seq<Param>, b: seq<Param>, c: seq<Param>, d: seq<Param>, key: Key)
    ensures HasKey(a + b + c + d, key) <==> HasKey(a, key) || HasKey(b, key) || HasKey(c, key) || HasKey(d, key)
  {
    HasKeyAppend(a, b, key);
    HasKeyAppend(a + b, c, key);
    HasKeyAppend(a + b + c, d, key);
  }

  /** The value `searchJikan` sends under each key: the query as typed,
      page size 25, the genre ids joined by ",", the status as given, and
      the fixed safe-search pair. */
  predicate SentValue(p: Param, query: string, filters: Option<SearchFilters>)
  {
    match p.key
    case Query => p.value == query
    case Limit => p.value == "25"
    case Genres => filters.Some? && p.value == Join(GenreIds(filters.value.genres), ",")
    case Status => filters.Some? && filters.value.status.Some? && p.value == filters.value.status.value
    case Sfw => p.value == "true"
    case GenresExclude => p.value == "12,49,28"
  }

  /** Every parameter of the four parts carries the value sent under its key. */
  lemma SearchValuesSent(query: string, filters: Option<SearchFilters>)
    ensures var ps := [Param(Query, query), Param(Limit, "25")] + GenreParams(filters) + StatusParams(filters) + SafeParams(filters);
      forall k :: 0 <= k < |ps| ==> SentValue(ps[k], query, filters)
  {
    var base := [Param(Query, query), Param(Limit, "25")];
    var g := GenreParams(filters);
    var st := StatusParams(filters);
    var sf := SafeParams(filters);
    var ps := base + g + st + sf;
    forall k | 0 <= k < |ps| ensures SentValue(ps[k], query, filters) {
      if k < 2 {
        assert ps[k] == base[k];
      } else if k < 2 + |g| {
        assert ps[k] == g[k - 2];
      } else if k < 2 + |g| + |st| {
        assert ps[k] == st[k - 2 - |g|];
      } else {
        assert ps[k] == sf[k - 2 - |g| - |st|];
      }
    }
  }

  /** The parameters a search sends, in order: the query and page size
      always; the genre list when non-empty; the status unless absent,
      empty or "any"; the safe-search pair unless NSFW content is allowed. */
  function SearchParams(query: string, filters: Option<SearchFilters>): (ps: seq<Param>)
    ensures |ps| >= 2 && ps[0] == Param(Query, query) && ps[1] == Param(Limit, "25")
    ensures HasKey(ps, Sfw) <==> !(filters.Some? && filters.value.nsfw)
    ensures HasKey(ps, Status) <==> (filters.Some? && filters.value.status.Some? && filters.value.status.value != "" && filters.value.status.value != "any")
    ensures HasKey(ps, Genres) <==> (filters.Some? && |filters.value.genres| > 0)
    ensures forall k :: 0 <= k < |ps| ==> SentValue(ps[k], query, filters)
  {
    var base := [Param(Query, query), Param(Limit, "25")];
    var g := GenreParams(filters);
    var st := StatusParams(filters);
    var sf := SafeParams(filters);
    var ps := base + g + st + sf;
    assert ps[0] == base[0] && ps[1] == base[1];
    HasKeyOfFour(base, g, st, sf, Sfw);
    HasKeyTwo(base[0], base[1], Sfw);
    SearchPartKeys(filters, Sfw);
    HasKeyOfFour(base, g, st, sf, Status);
    HasKeyTwo(base[0], base[1], Status);
    SearchPartKeys(filters, Status);
    HasKeyOfFour(base, g, st, sf, Genres);
    HasKeyTwo(base[0], base[1], Genres);
    SearchPartKeys(filters, Genres);
    SearchValuesSent(query, filters);
    ps
  }

  function GenreParams(filters: Option<SearchFilters>): seq<Param>
  {
    if filters.Some? && |filters.value.genres| > 0
    then [Param(Genres, Join(GenreIds(filters.value.genres), ","))] else []
  }

  function StatusParams(filters: Option<SearchFilters>): seq<Param>
  {
    if StatusGiven(filters) then [Param(Status, filters.value.status.value)] else []
  }

  function SafeParams(filters: Option<SearchFilters>): seq<Param>
  {
    if !(filters.Some? && filters.value.nsfw)
    then [Param(Sfw, "true"), Param(GenresExclude, "12,49,28")] else []
  }

  /** `path?k1=v1&k2=v2...`, the usual rendering of a parameter list. */
  function RenderQuery(path: string, ps: seq<Param>): string
    requires |ps| > 0
  {
    path + "?" + ps[0].key.Name() + "=" + ps[0].value + RenderRest(ps[1..])
  }

  /** `&k=v` for every parameter after the first. */
  function RenderRest(ps: seq<Param>): string
    decreases |ps|
  {
    if |ps| == 0 then ""
    else Pair(ps[0]) + RenderRest(ps[1..])
  }

  function Pair(p: Param): string
  {
    "&" + p.key.Name() + "=" + p.value
  }

  lemma {:induction false} RenderRestAppend(a: seq<Param>, b: seq<Param>)
    ensures RenderRest(a + b) == RenderRest(a) + RenderRest(b)
    decreases |a|
  {
    if |a| == 0 {
      assert a + b == b;
    } else {
      assert (a + b)[0] == a[0];
      assert (a + b)[1..] == a[1..] + b;
      RenderRestAppend(a[1..], b);
      calc {
        RenderRest(a + b);
        Pair(a[0]) + RenderRest(a[1..] + b);
        Pair(a[0]) + (RenderRest(a[1..]) + RenderRest(b));
        (Pair(a[0]) + RenderRest(a[1..])) + RenderRest(b);
      }
    }
  }

  lemma GenreSegment(filters: Option<SearchFilters>)
    ensures RenderRest(GenreParams(filters)) == GenreSuffix(filters)
  {
  }

  lemma StatusSegment(filters: Option<SearchFilters>)
    ensures RenderRest(StatusParams(filters)) == StatusSuffix(filters)
  {
  }

  lemma SafeSegment(filters: Option<SearchFilters>)
    ensures RenderRest(SafeParams(filters)) == if !(filters.Some? && filters.value.nsfw) then SafeSearchSuffix else ""
  {
    if !(filters.Some? && filters.value.nsfw) {
      SafePairsRender();
    }
  }

  lemma RenderTwo(p: Param, q: Param)
    ensures RenderRest([p, q]) == Pair(p) + Pair(q)
  {
    assert [p, q][0] == p && [p, q][1..] == [q];
    assert [q][0] == q && [q][1..] == [];
    assert RenderRest([q]) == Pair(q) + "";
    assert Pair(q) + "" == Pair(q);
  }

  lemma SfwPair()
    ensures Pair(Param(Sfw, "true")) == "&sfw=true"
  {
  }

  lemma ExcludePair()
    ensures Pair(Param(GenresExclude, "12,49,28")) == "&genres_exclude=12,49,28"
  {
  }

  lemma SafeSuffixSplits()
    ensures "&sfw=true" + "&genres_exclude=12,49,28" == SafeSearchSuffix
  {
  }

  lemma SafePairsSpelled()
    ensures Pair(Param(Sfw, "true")) + Pair(Param(GenresExclude, "12,49,28")) == SafeSearchSuffix
  {
    SfwPair();
    ExcludePair();
    SafeSuffixSplits();
  }

  lemma SafePairsRender()
    ensures RenderRest([Param(Sfw, "true"), Param(GenresExclude, "12,49,28")]) == SafeSearchSuffix
  {
    RenderTwo(Param(Sfw, "true"), Param(GenresExclude, "12,49,28"));
    SafePairsSpelled();
  }

  lemma LimitRenders()
    ensures RenderRest([Param(Limit, "25")]) == "&limit=25"
  {
    var limit := Param(Limit, "25");
    assert [limit][0] == limit && [limit][1..] == [];
    assert Pair(limit) == "&limit=25";
  }

  /** The optional parameters of a search render as the optional suffixes. */
  lemma OptionalPartsRender(filters: Option<SearchFilters>)
    ensures RenderRest(GenreParams(filters) + StatusParams(filters) + SafeParams(filters))
      == GenreSuffix(filters) + StatusSuffix(filters) + (if !(filters.Some? && filters.value.nsfw) then SafeSearchSuffix else "")
  {
    var g := GenreParams(filters);
    var st := StatusParams(filters);
    RenderRestAppend(g + st, SafeParams(filters));
    RenderRestAppend(g, st);
    GenreSegment(filters);
    StatusSegment(filters);
    SafeSegment(filters);
  }

  /** The `&...` tail of a search, parameter by parameter. */
  lemma SearchRestRenders(query: string, filters: Option<SearchFilters>)
    ensures RenderRest(SearchParams(query, filters)[1..])
      == "&limit=25" + (GenreSuffix(filters) + StatusSuffix(filters) + (if !(filters.Some? && filters.value.nsfw) then SafeSearchSuffix else ""))
  {
    var opt := GenreParams(filters) + StatusParams(filters) + SafeParams(filters);
    var limit := Param(Limit, "25");
    assert SearchParams(query, filters)[1..] == [limit] + opt;
    RenderRestAppend([limit], opt);
    LimitRenders();
    OptionalPartsRender(filters);
  }

  lemma SearchPathPrefix()
    ensures "/manga" + "?" + Query.Name() + "=" == "/manga?q="
  {
  }

  /** The endpoint `searchJikan` builds by string appending is exactly the
      rendering of its parameter list. */
  lemma SearchEndpointRenders(query: string, filters: Option<SearchFilters>)
    ensures "/manga?q=" + query + "&limit=25" + GenreSuffix(filters) + StatusSuffix(filters)
        + (if !(filters.Some? && filters.value.nsfw) then SafeSearchSuffix else "")
      == RenderQuery("/manga", SearchParams(query, filters))
  {
    var ps := SearchParams(query, filters);
    var safe := if !(filters.Some? && filters.value.nsfw) then SafeSearchSuffix else "";
    var tail := GenreSuffix(filters) + StatusSuffix(filters) + safe;
    var prefix := "/manga" + "?" + Query.Name() + "=";
    SearchPathPrefix();
    SearchRestRenders(query, filters);
    calc {
      RenderQuery("/manga", ps);
      prefix + query + RenderRest(ps[1..]);
      "/manga?q=" + query + ("&limit=25" + tail);
      { ConcatAssoc("/manga?q=" + query, "&limit=25", tail); }
      "/manga?q=" + query + "&limit=25" + tail;
      { ConcatAssoc("/manga?q=" + query + "&limit=25", GenreSuffix(filters) + StatusSuffix(filters), safe);
        ConcatAssoc("/manga?q=" + query + "&limit=25", GenreSuffix(filters), StatusSuffix(filters)); }
      "/manga?q=" + query + "&limit=25" + GenreSuffix(filters) + StatusSuffix(filters) + safe;
    }
  }

  lemma ConcatAssoc(a: string, b: string, c: string)
    ensures a + (b + c) == a + b + c
  {
  }

  /** `getMangaById(id)`: the lookup bypasses the safety filter. */
  function MangaByIdRequest(id: int): (r: CatalogRequest)
    ensures r.allowNsfw
    ensures forall m :: Shape(One(m), r.allowNsfw) == ShapedOne(Some(m))
    ensures forall items :: Shape(Many(items), r.allowNsfw) == ShapedMany(items)
  {
    forall items: seq<JikanManga> ensures SafeItems(items, true) == items {
      SafeItemsAllowAll(items);
    }
    CatalogRequest("/manga/" + IntToString(id), true)
  }

  lemma {:induction false} SafeItemsAllowAll(items: seq<JikanManga>)
    ensures SafeItems(items, true) == items
    decreases |items|
  {
    if |items| > 0 {
      SafeItemsAllowAll(items[1..]);
      assert [items[0]] + items[1..] == items;
    }
  }

  /** Distinct ids are looked up at distinct endpoints. */
  lemma MangaByIdInjective(a: int, b: int)
    requires MangaByIdRequest(a) == MangaByIdRequest(b)
    ensures a == b
  {
    var pa := "/manga/" + IntToString(a);
    var pb := "/manga/" + IntToString(b);
    assert pa[7..] == IntToString(a);
    assert pb[7..] == IntToString(b);
    IntToStringInjective(a, b);
  }
}

=== FILE: catalog_queue.dfy ===
/** The serialisation of catalog calls in services/api.ts: every
    `fetchJikan` task is chained onto one promise (`jikanQueue`), so tasks
    run one after another in arrival order; each waits 1000 ms before its
    request and, on a 429, 2000 ms more before its single retry. Response
    times are inputs. A task that fails still completes, so the next one
    starts. */
module CatalogQueue {

  /** Pause before a task's first request, in milliseconds. */
  const Spacing: int := 1000

  /** Pause between a 429 and the retry, in milliseconds. */
  const RetryPause: int := 2000

  /** How one queued task goes: how long its first response takes, whether
      that response is a 429, and how long the retry's response takes. */
  datatype Exchange = Exchange(latency: nat, throttled: bool, retryLatency: nat)

  /** A request leaving the client: which task sent it and when. */
  datatype Issue = Issue(task: nat, time: int)

  function Throttled(calls: seq<Exchange>): nat
    decreases |calls|
  {
    if |calls| == 0 then 0 else (if calls[0].throttled then 1 else 0) + Throttled(calls[1..])
  }

  /** Request `k + 1` goes out at least `Spacing` after request `k`, and
      belongs to the same task or the next one. */
  predicate StepPaced(r: seq<Issue>, k: int)
    requires 0 <= k < |r| - 1
  {
    r[k + 1].time >= r[k].time + Spacing && r[k].task <= r[k + 1].task <= r[k].task + 1
  }

  /** The requests are in task order, advancing one task at a time, and
      at least `Spacing` apart. */
  predicate Paced(r: seq<Issue>)
  {
    forall k :: 0 <= k < |r| - 1 ==> StepPaced(r, k)
  }

  /** A task's own requests followed by the later tasks' stay paced when
      the later ones start at least `Spacing` after the task's last. */
  lemma PacedAppend(head: seq<Issue>, rest: seq<Issue>)
    requires |head| > 0 && Paced(head) && Paced(rest)
    requires |rest| > 0 ==> rest[0].time >= head[|head| - 1].time + Spacing
    requires |rest| > 0 ==> head[|head| - 1].task <= rest[0].task <= head[|head| - 1].task + 1
    ensures Paced(head + rest)
  {
    var r := head + rest;
    forall k | 0 <= k < |r| - 1
      ensures StepPaced(r, k)
    {
      if k + 1 < |head| {
        assert StepPaced(head, k);
        assert r[k] == head[k] && r[k + 1] == head[k + 1];
      } else if k + 1 == |head| {
        assert r[k] == head[|head| - 1] && r[k + 1] == rest[0];
      } else {
        assert StepPaced(rest, k - |head|);
        assert r[k] == rest[k - |head|] && r[k + 1] == rest[k + 1 - |head|];
      }
    }
  }

  /** How many of the requests `task` sent. */
  function CountTask(r: seq<Issue>, task: int): nat
    decreases |r|
  {
    if |r| == 0 then 0 else (if r[0].task == task then 1 else 0) + CountTask(r[1..], task)
  }

  lemma {:induction false} CountTaskAppend(a: seq<Issue>, b: seq<Issue>, task: int)
    ensures CountTask(a + b, task) == CountTask(a, task) + CountTask(b, task)
    decreases |a|
  {
    if |a| == 0 {
      assert a + b == b;
    } else {
      assert (a + b)[0] == a[0];
      assert (a + b)[1..] == a[1..] + b;
      CountTaskAppend(a[1..], b, task);
    }
  }

  /** The requests of one task whose first request leaves at `sent`: one,
      or two when the first reply is throttled, the retry no earlier. */
  function TaskRequests(c: Exchange, task: nat, sent: int): (h: seq<Issue>)
    ensures |h| == if c.throttled then 2 else 1
    ensures h[0] == Issue(task, sent) && h[|h| - 1].task == task && h[|h| - 1].time >= sent
    ensures Paced(h)
    ensures forall other :: CountTask(h, other) == if other == task then |h| else 0
  {
    if c.throttled then
      var h := [Issue(task, sent), Issue(task, sent + c.latency + RetryPause)];
      assert StepPaced(h, 0);
      assert h[1..] == [h[1]] && [h[1]][1..] == [];
      h
    else
      assert [Issue(task, sent)][1..] == [];
      [Issue(task, sent)]
  }

  /** Task `first + t` sends two requests when `calls[t]` was throttled
      and one otherwise. */
  predicate RetriedOnlyWhenThrottled(r: seq<Issue>, calls: seq<Exchange>, first: int)
  {
    forall t :: 0 <= t < |calls| ==> CountTask(r, first + t) == if calls[t].throttled then 2 else 1
  }

  /** No task outside `first .. first + count - 1` sends a request. */
  ghost predicate NoOtherTasks(r: seq<Issue>, first: int, count: nat)
  {
    forall task :: task < first || first + count <= task ==> CountTask(r, task) == 0
  }

  /** One task's requests followed by the schedule of the tasks after it
      form the schedule of all of them: the counts add up, the first and
      last tasks are right, and the whole stays paced. */
  lemma JoinTasks(calls: seq<Exchange>, first: nat, sent: int, head: seq<Issue>, rest: seq<Issue>)
    requires |calls| > 0 && head == TaskRequests(calls[0], first, sent)
    requires |rest| == |calls[1..]| + Throttled(calls[1..]) && Paced(rest)
    requires |rest| > 0 ==> rest[0].task == first + 1 && rest[0].time >= head[|head| - 1].time + Spacing
    requires |rest| > 0 ==> rest[|rest| - 1].task == first + 1 + |calls[1..]| - 1
    requires forall t :: 0 <= t < |calls[1..]| ==> CountTask(rest, first + 1 + t) == if calls[1..][t].throttled then 2 else 1
    requires forall task :: task < first + 1 || first + 1 + |calls[1..]| <= task ==> CountTask(rest, task) == 0
    ensures |head + rest| == |calls| + Throttled(calls)
    ensures (head + rest)[0].task == first && (head + rest)[0].time == sent
    ensures (head + rest)[|head + rest| - 1].task == first + |calls| - 1
    ensures Paced(head + rest)
    ensures forall t :: 0 <= t < |calls| ==> CountTask(head + rest, first + t) == if calls[t].throttled then 2 else 1
    ensures forall task :: task < first || first + |calls| <= task ==> CountTask(head + rest, task) == 0
  {
    forall task
      ensures CountTask(head + rest, task) == CountTask(head, task) + CountTask(rest, task)
    {
      CountTaskAppend(head, rest, task);
    }
    forall t | 0 <= t < |calls|
      ensures CountTask(head + rest, first + t) == if calls[t].throttled then 2 else 1
    {
      if t > 0 {
        assert calls[1..][t - 1] == calls[t];
        assert CountTask(rest, first + 1 + (t - 1)) == if calls[t].throttled then 2 else 1;
      }
    }
    PacedAppend(head, rest);
    var r := head + rest;
    assert r[0] == head[0];
    if |rest| == 0 {
      assert |calls| == 1;
      assert r[|r| - 1] == head[|head| - 1];
    } else {
      assert r[|r| - 1] == rest[|rest| - 1];
    }
  }

  /** The requests of tasks `first`, `first + 1`, ... given that the queue
      becomes free at time `free`. Requests go out in task order, one task
      at a time, at least `Spacing` apart, and a task sends a second request
      exactly when its first was throttled. */
  function Schedule(free: int, calls: seq<Exchange>, first: nat): (r: seq<Issue>)
    ensures |r| == |calls| + Throttled(calls)
    ensures |r| > 0 ==> r[0].task == first && r[0].time >= free + Spacing
    ensures |r| > 0 ==> r[|r| - 1].task == first + |calls| - 1
    ensures Paced(r)
    ensures RetriedOnlyWhenThrottled(r, calls, first)
    ensures NoOtherTasks(r, first, |calls|)
    decreases |calls|
  {
    if |calls| == 0 then
      assert forall task :: CountTask([], task) == 0;
      []
    else
      var c := calls[0];
      var head := TaskRequests(c, first, free + Spacing);
      var done := head[|head| - 1].time + (if c.throttled then c.retryLatency else c.latency);
      var rest := Schedule(done, calls[1..], first + 1);
      JoinTasks(calls, first, free + Spacing, head, rest);
      head + rest
  }

  /** Any two requests of a schedule are at least `Spacing` apart for every
      request between them: the n-th request leaves at least
      `(n - m) * Spacing` after the m-th. */
  lemma {:induction false} RequestsSpreadOut(free: int, calls: seq<Exchange>, m: nat, n: nat)
    requires m <= n < |Schedule(free, calls, 0)|
    ensures Schedule(free, calls, 0)[n].time >= Schedule(free, calls, 0)[m].time + (n - m) * Spacing
    decreases n - m
  {
    if m < n {
      RequestsSpreadOut(free, calls, m, n - 1);
      var r := Schedule(free, calls, 0);
      assert StepPaced(r, n - 1);
    }
  }

  /** Tasks queued together are spread over time: with more than `d`
      tasks, the last request leaves at least `d` seconds after the first. */
  lemma QueuedCallsSpan(free: int, calls: seq<Exchange>, d: nat)
    requires d < |calls|
    ensures Schedule(free, calls, 0)[|Schedule(free, calls, 0)| - 1].time >= Schedule(free, calls, 0)[0].time + d * Spacing
  {
    LastAfterFirst(Schedule(free, calls, 0), d);
  }

  /** In a paced run of more than `d` requests the last leaves at least
      `d * Spacing` after the first. */
  lemma LastAfterFirst(r: seq<Issue>, d: nat)
    requires Paced(r) && |r| > d
    ensures r[|r| - 1].time >= r[0].time + d * Spacing
  {
    PacedSpan(r, |r| - 1);
    assert (|r| - 1) * Spacing >= d * Spacing;
  }

  /** In a paced run the n-th request leaves at least `n * Spacing` after
      the first. */
  lemma {:induction false} PacedSpan(r: seq<Issue>, n: nat)
    requires Paced(r) && n < |r|
    ensures r[n].time >= r[0].time + n * Spacing
  {
    if n > 0 {
      PacedSpan(r, n - 1);
      assert StepPaced(r, n - 1);
    }
  }

  /** A paced run of requests skips no task between its first and its last. */
  lemma {:induction false} PacedCoversTasks(r: seq<Issue>, t: nat)
    requires Paced(r) && |r| > 0 && r[0].task <= t <= r[|r| - 1].task
    ensures exists k :: 0 <= k < |r| && r[k].task == t
    decreases |r|
  {
    if r[0].task != t {
      assert |r| > 1;
      assert StepPaced(r, 0);
      var tail := r[1..];
      assert Paced(tail) by {
        forall k | 0 <= k < |tail| - 1
          ensures StepPaced(tail, k)
        {
          assert StepPaced(r, k + 1);
          assert tail[k] == r[k + 1] && tail[k + 1] == r[k + 2];
        }
      }
      assert tail[|tail| - 1] == r[|r| - 1];
      PacedCoversTasks(tail, t);
      var k :| 0 <= k < |tail| && tail[k].task == t;
      assert r[k + 1].task == t;
    }
  }

  /** Every queued task sends its request, whatever happened to the tasks
      before it: a failed task does not stall the queue. */
  lemma EveryTaskIsServed(free: int, calls: seq<Exchange>, t: nat)
    requires t < |calls|
    ensures exists k :: 0 <= k < |Schedule(free, calls, 0)| && Schedule(free, calls, 0)[k].task == t
  {
    PacedCoversTasks(Schedule(free, calls, 0), t);
  }
}

=== FILE: chapter_number.dfy ===
/** How the chapter list orders chapters: `parseFloat` of the chapter
    label, and the sign of the difference of two such numbers as the array
    sort reads it (ECMAScript `parseFloat`, section 19.2.4 of ECMA-262, and
    `SortCompare`, section 23.1.3.30.2). Numbers are exact reals: the
    rounding to a binary64 value is not modelled. */
module ChapterNumber {
  import opened Basics
  import opened Text

  /** A JavaScript number as far as ordering goes. */
  datatype Number = NaN | Finite(value: real) | Infinite(negative: bool)

  // ---------------------------------------------------------------------
  // parseFloat

  /** StrWhiteSpaceChar: the white space and line terminators `parseFloat`
      skips at the start. */
  predicate IsWhitespace(c: char)
  {
    var k := c as int;
    // tab, vertical tab, form feed, space, no-break space, byte order mark
    k == 0x09 || k == 0x0B || k == 0x0C || k == 0x20 || k == 0xA0 || k == 0xFEFF ||
    // the other space separators of Unicode category Zs
    k == 0x1680 || (0x2000 <= k <= 0x200A) || k == 0x202F || k == 0x205F || k == 0x3000 ||
    // line feed, carriage return, line and paragraph separators
    k == 0x0A || k == 0x0D || k == 0x2028 || k == 0x2029
  }

  /** The text after the leading white space. */
  function TrimStart(s: string): (t: string)
    ensures |t| <= |s| && t == s[|s| - |t|..]
    ensures forall i :: 0 <= i < |s| - |t| ==> IsWhitespace(s[i])
    ensures |t| > 0 ==> !IsWhitespace(t[0])
    decreases |s|
  {
    if |s| > 0 && IsWhitespace(s[0]) then TrimStart(s[1..]) else s
  }

  /** The longest run of decimal digits at the start of `s`. */
  function LeadingDigits(s: string): (d: string)
    ensures |d| <= |s| && d == s[..|d|] && AllDigits(d)
    ensures |d| < |s| ==> !IsDigit(s[|d|])
    decreases |s|
  {
    if |s| > 0 && IsDigit(s[0]) then [s[0]] + LeadingDigits(s[1..]) else []
  }

  function Pow10Nat(e: nat): (p: nat)
    ensures p >= 1
  {
    if e == 0 then 1 else 10 * Pow10Nat(e - 1)
  }

  function Pow10(e: int): (p: real)
    ensures p > 0.0
  {
    if e >= 0 then Pow10Nat(e) as real else 1.0 / Pow10Nat(-e) as real
  }

  predicate StartsWith(s: string, prefix: string)
  {
    |prefix| <= |s| && s[..|prefix|] == prefix
  }

  /** The exponent part after a mantissa: `e` or `E`, an optional sign and at
      least one digit; anything else means no exponent. */
  function Exponent(s: string): (e: int)
    ensures e != 0 ==> |s| > 1 && (s[0] == 'e' || s[0] == 'E')
  {
    if |s| > 0 && (s[0] == 'e' || s[0] == 'E') then
      var signed := |s| > 1 && (s[1] == '+' || s[1] == '-');
      var digits := LeadingDigits(if signed then s[2..] else s[1..]);
      if |digits| == 0 then 0
      else if signed && s[1] == '-' then -(DigitsValue(digits) as int)
      else DigitsValue(digits)
    else 0
  }

  /** The parts of the longest unsigned decimal literal at the start of a
      text: the integer digits, the fraction digits and the exponent. */
  datatype Literal = Literal(whole: string, fraction: string, exponent: int)

  /** Reads the longest unsigned decimal literal at the start of `u`: digits,
      then an optional point with digits, then an optional exponent. None
      when there is no digit before or just after the point. */
  function ScanLiteral(u: string): (r: Option<Literal>)
    ensures r.Some? ==> r.value.whole == LeadingDigits(u) && AllDigits(r.value.fraction)
    ensures r.Some? <==> |LeadingDigits(u)| > 0 || (|u| > 1 && u[0] == '.' && IsDigit(u[1]))
  {
    var whole := LeadingDigits(u);
    var afterWhole := u[|whole|..];
    var dotted := |afterWhole| > 0 && afterWhole[0] == '.';
    var fraction := if dotted then LeadingDigits(afterWhole[1..]) else [];
    if |whole| == 0 && |fraction| == 0 then None
    else
      var afterFraction := if dotted then afterWhole[1 + |fraction|..] else afterWhole;
      Some(Literal(whole, fraction, Exponent(afterFraction)))
  }

  /** The value of `whole.fraction` written in decimal. */
  function Mantissa(whole: string, fraction: string): real
    requires AllDigits(whole) && AllDigits(fraction)
  {
    DigitsValue(whole) as real + DigitsValue(fraction) as real / Pow10Nat(|fraction|) as real
  }

  /** The number a literal denotes, exactly. */
  function LiteralValue(lit: Literal): real
    requires AllDigits(lit.whole) && AllDigits(lit.fraction)
  {
    Mantissa(lit.whole, lit.fraction) * Pow10(lit.exponent)
  }

  /** The magnitude after the sign: `Infinity`, a decimal literal, or
      nothing readable. */
  function Magnitude(u: string): (n: Number)
    ensures n.Infinite? ==> !n.negative && StartsWith(u, "Infinity")
    ensures n.NaN? ==> !StartsWith(u, "Infinity") && ScanLiteral(u).None?
  {
    if StartsWith(u, "Infinity") then Infinite(false)
    else
      match ScanLiteral(u)
      case None => NaN
      case Some(lit) => Finite(LiteralValue(lit))
  }

  /** Applies an optional leading sign to the magnitude that follows it. */
  function Signed(t: string): (n: Number)
    ensures |t| > 0 && t[0] == '-' ==> n == Negate(Magnitude(t[1..]))
    ensures |t| > 0 && t[0] == '+' ==> n == Magnitude(t[1..])
    ensures (|t| == 0 || (t[0] != '-' && t[0] != '+')) ==> n == Magnitude(t)
  {
    if |t| > 0 && t[0] == '-' then Negate(Magnitude(t[1..]))
    else if |t| > 0 && t[0] == '+' then Magnitude(t[1..])
    else Magnitude(t)
  }

  function Negate(n: Number): (m: Number)
    ensures n.NaN? <==> m.NaN?
  {
    match n
    case NaN => NaN
    case Finite(v) => Finite(-v)
    case Infinite(negative) => Infinite(!negative)
  }

  /** `parseFloat(s)`: skip leading white space, read an optional sign, then
      `Infinity` or the longest decimal literal; NaN when there is neither.
      Trailing text is ignored. */
  function ParseFloat(s: string): (n: Number)
    ensures var t := TrimStart(s);
      var minus := |t| > 0 && t[0] == '-';
      var u := if |t| > 0 && (t[0] == '-' || t[0] == '+') then t[1..] else t;
      (n.NaN? <==> !StartsWith(u, "Infinity") && ScanLiteral(u).None?) &&
      (n.Infinite? <==> StartsWith(u, "Infinity")) &&
      (n.Infinite? ==> (n.negative <==> minus)) &&
      (n.Finite? ==>
         ScanLiteral(u).Some? &&
         n.value == if minus then -LiteralValue(ScanLiteral(u).value) else LiteralValue(ScanLiteral(u).value))
  {
    Signed(TrimStart(s))
  }

  /** Stripping white space in front of a text strips it all. */
  lemma {:induction false} TrimStartSkips(w: string, s: string)
    requires forall i :: 0 <= i < |w| ==> IsWhitespace(w[i])
    ensures TrimStart(w + s) == TrimStart(s)
    decreases |w|
  {
    if |w| > 0 {
      assert IsWhitespace((w + s)[0]) by {
        assert (w + s)[0] == w[0];
      }
      assert (w + s)[1..] == w[1..] + s;
      assert forall i :: 0 <= i < |w[1..]| ==> IsWhitespace(w[1..][i]) by {
        forall i | 0 <= i < |w[1..]| ensures IsWhitespace(w[1..][i]) {
          assert w[1..][i] == w[i + 1];
        }
      }
      TrimStartSkips(w[1..], s);
      assert TrimStart(w + s) == TrimStart(w[1..] + s);
    } else {
      assert w + s == s;
    }
  }

  /** Leading white space does not change what `parseFloat` reads. */
  lemma LeadingWhitespaceIgnored(w: string, s: string)
    requires forall i :: 0 <= i < |w| ==> IsWhitespace(w[i])
    ensures ParseFloat(w + s) == ParseFloat(s)
  {
    TrimStartSkips(w, s);
  }

  /** The digits at the start of `d + rest` are `d`, when `rest` does not
      continue the run. */
  lemma {:induction false} LeadingDigitsOfConcat(d: string, rest: string)
    requires AllDigits(d)
    requires |rest| > 0 ==> !IsDigit(rest[0])
    ensures LeadingDigits(d + rest) == d
    decreases |d|
  {
    if |d| == 0 {
      assert d + rest == rest;
    } else {
      assert (d + rest)[0] == d[0];
      assert (d + rest)[1..] == d[1..] + rest;
      assert AllDigits(d[1..]) by {
        forall i | 0 <= i < |d[1..]| ensures IsDigit(d[1..][i]) {
          assert d[1..][i] == d[i + 1];
        }
      }
      LeadingDigitsOfConcat(d[1..], rest);
      assert d == [d[0]] + d[1..];
    }
  }

  /** The literal at the start of `d + rest`, for a digit run `d` followed
      by text that cannot continue a literal. */
  lemma ScanWholeDigits(d: string, rest: string)
    requires |d| > 0 && AllDigits(d)
    requires |rest| > 0 ==> !IsDigit(rest[0]) && rest[0] != '.' && rest[0] != 'e' && rest[0] != 'E'
    ensures ScanLiteral(d + rest) == Some(Literal(d, [], 0))
  {
    LeadingDigitsOfConcat(d, rest);
    assert (d + rest)[|d|..] == rest;
  }

  /** Without an exponent a literal denotes its digits as written. */
  lemma LiteralWithoutExponent(whole: string, fraction: string)
    requires AllDigits(whole) && AllDigits(fraction)
    ensures LiteralValue(Literal(whole, fraction, 0)) == Mantissa(whole, fraction)
  {
    assert Pow10(0) == 1.0;
  }

  /** A literal of digits alone denotes their value. */
  lemma WholeLiteralValue(whole: string)
    requires AllDigits(whole)
    ensures LiteralValue(Literal(whole, [], 0)) == DigitsValue(whole) as real
  {
    LiteralWithoutExponent(whole, []);
    assert DigitsValue([]) == 0;
    assert Pow10Nat(0) == 1;
  }

  /** A text starting with a digit has no white space or sign to skip. */
  lemma ParseFromDigit(s: string)
    requires |s| > 0 && IsDigit(s[0])
    ensures ParseFloat(s) == Magnitude(s)
  {
    assert !IsWhitespace(s[0]);
    assert TrimStart(s) == s;
  }

  /** A text starting with a digit reads as the literal there. */
  lemma MagnitudeFromDigit(s: string)
    requires |s| > 0 && IsDigit(s[0])
    ensures ScanLiteral(s).Some? && Magnitude(s) == Finite(LiteralValue(ScanLiteral(s).value))
  {
    assert |LeadingDigits(s)| > 0;
    assert !StartsWith(s, "Infinity") by {
      assert s[0] != 'I';
    }
  }

  /** A whole-number chapter label reads as that number, whatever
      non-numeric text follows it ("12", "12 extra", "12-b"). */
  lemma ParseWholeNumber(n: nat, rest: string)
    requires |rest| > 0 ==> !IsDigit(rest[0]) && rest[0] != '.' && rest[0] != 'e' && rest[0] != 'E'
    ensures ParseFloat(NatToString(n) + rest) == Finite(n as real)
  {
    var d := NatToString(n);
    var s := d + rest;
    assert s[0] == d[0];
    ParseFromDigit(s);
    MagnitudeFromDigit(s);
    ScanWholeDigits(d, rest);
    assert ParseFloat(s) == Finite(LiteralValue(Literal(d, [], 0)));
    WholeLiteralValue(d);
    NatToStringRoundTrip(n);
  }

  /** The literal `whole.fraction`, for two digit runs. */
  lemma ScanDecimal(whole: string, fraction: string)
    requires |whole| > 0 && AllDigits(whole) && AllDigits(fraction)
    ensures ScanLiteral(whole + "." + fraction) == Some(Literal(whole, fraction, 0))
  {
    var s := whole + "." + fraction;
    assert s == whole + ("." + fraction);
    LeadingDigitsOfConcat(whole, "." + fraction);
    assert s[|whole|..] == "." + fraction;
    assert ("." + fraction)[1..] == fraction + [];
    LeadingDigitsOfConcat(fraction, []);
    assert s[|whole|..][1 + |fraction|..] == [];
  }

  /** A label with a point reads as its integer part plus its fraction
      ("10.5" is ten and a half). */
  lemma ParseDecimal(whole: string, fraction: string)
    requires |whole| > 0 && AllDigits(whole) && AllDigits(fraction)
    ensures ParseFloat(whole + "." + fraction) == Finite(Mantissa(whole, fraction))
  {
    var s := whole + "." + fraction;
    assert s[0] == whole[0];
    ParseFromDigit(s);
    MagnitudeFromDigit(s);
    ScanDecimal(whole, fraction);
    assert ParseFloat(s) == Finite(LiteralValue(Literal(whole, fraction, 0)));
    LiteralWithoutExponent(whole, fraction);
  }

  lemma TenAndAHalf()
    ensures Mantissa("10", "5") == 10.5
  {
    assert DigitsValue("10") == 10 by {
      assert "10"[..1] == "1";
    }
    assert DigitsValue("5") == 5;
    assert Pow10Nat(1) == 10;
  }

  /** "10.5" reads as 10.5. */
  lemma ParseHalfChapter()
    ensures ParseFloat("10.5") == Finite(10.5)
  {
    assert "10.5" == "10" + "." + "5";
    ParseDecimal("10", "5");
    TenAndAHalf();
  }

  /** A label with no number in front reads as NaN. */
  lemma ParseNoNumber()
    ensures ParseFloat("Extra") == NaN
  {
    assert !IsWhitespace('E');
    assert TrimStart("Extra") == "Extra";
    NoLiteralAtLetter("Extra");
  }

  /** No literal starts at a character that is neither a digit nor a point. */
  lemma NoLiteralAtLetter(u: string)
    requires |u| > 0 && !IsDigit(u[0]) && u[0] != '.'
    ensures ScanLiteral(u).None?
  {
  }

  // ---------------------------------------------------------------------
  // The comparator

  /** IEEE 754 subtraction on the values above: NaN absorbs, infinities of
      the same sign cancel to NaN. */
  function Difference(x: Number, y: Number): (d: Number)
    ensures d.NaN? <==> x.NaN? || y.NaN? || (x.Infinite? && y.Infinite? && x.negative == y.negative)
  {
    match (x, y)
    case (NaN, _) => NaN
    case (_, NaN) => NaN
    case (Finite(a), Finite(b)) => Finite(a - b)
    case (Infinite(n), Finite(_)) => Infinite(n)
    case (Finite(_), Infinite(n)) => Infinite(!n)
    case (Infinite(n), Infinite(m)) => if n == m then NaN else Infinite(n)
  }

  /** What the array sort makes of a comparator result: its sign, with NaN
      read as zero. */
  function SortSign(d: Number): (r: int)
    ensures -1 <= r <= 1
    ensures d.NaN? ==> r == 0
  {
    match d
    case NaN => 0
    case Finite(v) => if v < 0.0 then -1 else if v > 0.0 then 1 else 0
    case Infinite(negative) => if negative then -1 else 1
  }

  /** The order of the extended reals, stated independently of subtraction. */
  predicate Below(x: Number, y: Number)
  {
    match (x, y)
    case (Finite(a), Finite(b)) => a < b
    case (Infinite(n), Finite(_)) => n
    case (Finite(_), Infinite(m)) => !m
    case (Infinite(n), Infinite(m)) => n && !m
    case _ => false
  }

  /** The sign of `y - x` is the order of `x` and `y`: the subtraction
      comparator agrees with the numeric order whenever neither side is NaN. */
  lemma DifferenceSign(x: Number, y: Number)
    requires !x.NaN? && !y.NaN?
    ensures SortSign(Difference(y, x)) == (if Below(x, y) then 1 else if Below(y, x) then -1 else 0)
  {
  }

  /** The numeric order is strict: never both ways. */
  lemma BelowAsymmetric(x: Number, y: Number)
    ensures Below(x, y) ==> !Below(y, x)
  {
  }

  /** The numeric order is total on numbers other than NaN. */
  lemma BelowIsTotal(x: Number, y: Number)
    requires !x.NaN? && !y.NaN?
    ensures Below(x, y) || Below(y, x) || x == y
  {
  }

  /** The numeric order is transitive. */
  lemma BelowIsTransitive(x: Number, y: Number, z: Number)
    requires Below(x, y) && Below(y, z)
    ensures Below(x, z)
  {
  }
}

=== FILE: chapters.dfy ===
/** The chapter-list reconciliation inside `getChapters` (services/api.ts):
    Comick returns every upload of every chapter in both languages; the
    service keeps one entry per chapter key, preferring the Brazilian
    Portuguese upload, and orders the entries by chapter number, highest
    first. */
module Chapters {
  import opened Basics
  import opened Types
  import opened ChapterNumber

  /** One upload as Comick lists it. `chap` is the chapter key. */
  datatype RawChapter = RawChapter(
    hid: string,
    chap: Option<string>,
    vol: Option<string>,
    title: Option<string>,
    createdAt: Option<string>,
    lang: Option<string>)

  /** The preferred language. */
  const Portuguese: string := "pt-br"

  predicate IsPortuguese(lang: Option<string>)
  {
    lang == Some(Portuguese)
  }

  /** Uploads without a key (absent or empty) are skipped. */
  predicate HasLabel(ch: RawChapter)
  {
    ch.chap.Some? && ch.chap.value != ""
  }

  /** The upload carries the chapter key `key` (and, when `ptOnly`, is in
      Portuguese). */
  predicate Matches(ch: RawChapter, key: string, ptOnly: bool)
  {
    HasLabel(ch) && ch.chap.value == key && (ptOnly ==> IsPortuguese(ch.lang))
  }

  /** The entry built from an upload. */
  function ToChapter(ch: RawChapter): (c: Chapter)
    requires HasLabel(ch)
    ensures c.chapter == ch.chap.value && c.lang == ch.lang && c.id == ch.hid
  {
    Chapter(ch.hid, ch.vol, ch.chap.value, ch.title, ch.createdAt, ch.lang)
  }

  // ---------------------------------------------------------------------
  // Which upload should represent a chapter

  /** The position of the first upload matching `key`. */
  function FirstMatch(raws: seq<RawChapter>, key: string, ptOnly: bool): (r: Option<nat>)
    ensures r.Some? ==> r.value < |raws| && Matches(raws[r.value], key, ptOnly)
    ensures r.Some? ==> forall k :: 0 <= k < r.value ==> !Matches(raws[k], key, ptOnly)
    ensures r.None? ==> forall k :: 0 <= k < |raws| ==> !Matches(raws[k], key, ptOnly)
    decreases |raws|
  {
    if |raws| == 0 then None
    else
      var earlier := FirstMatch(raws[..|raws| - 1], key, ptOnly);
      if earlier.Some? then earlier
      else if Matches(raws[|raws| - 1], key, ptOnly) then Some(|raws| - 1)
      else None
  }

  /** The upload that should stand for chapter `key`: the first Portuguese
      one if there is any, otherwise the first one. */
  function Preferred(raws: seq<RawChapter>, key: string): (r: Option<nat>)
    ensures r.Some? <==> FirstMatch(raws, key, false).Some?
    ensures r.Some? ==> r.value < |raws| && Matches(raws[r.value], key, false)
  {
    var pt := FirstMatch(raws, key, true);
    if pt.Some? then pt else FirstMatch(raws, key, false)
  }

  // ---------------------------------------------------------------------
  // The map the service builds

  /** Position of the entry for `key` in an insertion-ordered map. */
  function Find(m: seq<Chapter>, key: string): (r: Option<nat>)
    ensures r.Some? ==> r.value < |m| && m[r.value].chapter == key
    ensures r.None? ==> forall i :: 0 <= i < |m| ==> m[i].chapter != key
    decreases |m|
  {
    if |m| == 0 then None
    else if m[|m| - 1].chapter == key then Some(|m| - 1)
    else Find(m[..|m| - 1], key)
  }

  /** One loop iteration: skip an unlabelled upload; add a new key at the
      end; replace an existing entry in place only when it is not Portuguese
      and the new upload is. */
  function Absorb(m: seq<Chapter>, ch: RawChapter): (r: seq<Chapter>)
    ensures |m| <= |r| <= |m| + 1
  {
    if !HasLabel(ch) then m
    else
      match Find(m, ch.chap.value)
      case None => m + [ToChapter(ch)]
      case Some(i) => if !IsPortuguese(m[i].lang) && IsPortuguese(ch.lang) then m[i := ToChapter(ch)] else m
  }

  /** One entry per key. */
  ghost predicate UniqueLabels(m: seq<Chapter>)
  {
    forall i, j :: 0 <= i < j < |m| ==> m[i].chapter != m[j].chapter
  }

  /** Every entry is built from the preferred upload of its key. */
  ghost predicate EntriesPreferred(raws: seq<RawChapter>, m: seq<Chapter>)
  {
    forall i :: 0 <= i < |m| ==>
      Preferred(raws, m[i].chapter).Some? && m[i] == ToChapter(raws[Preferred(raws, m[i].chapter).value])
  }

  /** Every key that occurs on some upload has an entry. */
  ghost predicate Complete(raws: seq<RawChapter>, m: seq<Chapter>)
  {
    forall key :: FirstMatch(raws, key, false).Some? ==> Find(m, key).Some?
  }

  /** Entries are in the order their labels first appeared. */
  ghost predicate FirstArrivalOrder(raws: seq<RawChapter>, m: seq<Chapter>)
  {
    forall i, j :: 0 <= i < j < |m| ==> ArrivedBefore(raws, m[i].chapter, m[j].chapter)
  }

  /** Both labels have uploads, and `a`'s first one came before `b`'s. */
  ghost predicate ArrivedBefore(raws: seq<RawChapter>, a: string, b: string)
  {
    FirstMatch(raws, a, false).Some? && FirstMatch(raws, b, false).Some? &&
    FirstMatch(raws, a, false).value < FirstMatch(raws, b, false).value
  }

  /** The parts of the invariant that depend only on the labels of the
      entries. */
  ghost predicate Skeleton(raws: seq<RawChapter>, m: seq<Chapter>)
  {
    UniqueLabels(m) && Complete(raws, m) && FirstArrivalOrder(raws, m)
  }

  ghost predicate Reconciled(raws: seq<RawChapter>, m: seq<Chapter>)
  {
    Skeleton(raws, m) && EntriesPreferred(raws, m)
  }

  /** How the first match changes when one more upload arrives. */
  lemma FirstMatchExtend(raws: seq<RawChapter>, ch: RawChapter, key: string, ptOnly: bool)
    ensures FirstMatch(raws + [ch], key, ptOnly) ==
      if FirstMatch(raws, key, ptOnly).Some? then FirstMatch(raws, key, ptOnly)
      else if Matches(ch, key, ptOnly) then Some(|raws|)
      else None
  {
    assert (raws + [ch])[..|raws|] == raws;
  }

  /** A label with a Portuguese upload has an upload. */
  lemma PortugueseMatchIsMatch(raws: seq<RawChapter>, key: string)
    ensures FirstMatch(raws, key, true).Some? ==> FirstMatch(raws, key, false).Some?
  {
    if FirstMatch(raws, key, true).Some? {
      var k := FirstMatch(raws, key, true).value;
      assert Matches(raws[k], key, false);
    }
  }

  /** The new upload changes nothing for the labels other than `key`. */
  ghost predicate OthersUnchanged(raws: seq<RawChapter>, ch: RawChapter, key: string)
  {
    forall other | other != key ::
      Preferred(raws + [ch], other) == Preferred(raws, other) &&
      FirstMatch(raws + [ch], other, false) == FirstMatch(raws, other, false)
  }

  /** The preferred upload of a label other than the new upload's is
      unchanged. */
  lemma PreferredUnchanged(raws: seq<RawChapter>, ch: RawChapter, key: string)
    requires !HasLabel(ch) || ch.chap.value != key
    ensures Preferred(raws + [ch], key) == Preferred(raws, key)
    ensures FirstMatch(raws + [ch], key, false) == FirstMatch(raws, key, false)
  {
    FirstMatchExtend(raws, ch, key, true);
    FirstMatchExtend(raws, ch, key, false);
  }

  lemma FindAppend(m: seq<Chapter>, c: Chapter, key: string)
    ensures Find(m + [c], key) == if c.chapter == key then Some(|m|) else Find(m, key)
  {
    assert (m + [c])[..|m|] == m;
  }

  /** Find only looks at labels. */
  lemma {:induction false} FindSameLabels(m: seq<Chapter>, m': seq<Chapter>, key: string)
    requires |m| == |m'| && forall a :: 0 <= a < |m| ==> m[a].chapter == m'[a].chapter
    ensures Find(m, key) == Find(m', key)
    decreases |m|
  {
    if |m| > 0 {
      FindSameLabels(m[..|m| - 1], m'[..|m| - 1], key);
    }
  }

  /** The label-only invariant carries over to entries with the same labels
      when no label's first upload moved. */
  lemma SkeletonTransfer(raws: seq<RawChapter>, raws': seq<RawChapter>, m: seq<Chapter>, m': seq<Chapter>)
    requires Skeleton(raws, m)
    requires |m| == |m'| && forall a :: 0 <= a < |m| ==> m[a].chapter == m'[a].chapter
    requires forall key :: FirstMatch(raws', key, false) == FirstMatch(raws, key, false)
    ensures Skeleton(raws', m')
  {
    assert UniqueLabels(m') by {
      forall i, j | 0 <= i < j < |m'| ensures m'[i].chapter != m'[j].chapter {
        assert m[i].chapter != m[j].chapter;
      }
    }
    assert Complete(raws', m') by {
      forall key | FirstMatch(raws', key, false).Some? ensures Find(m', key).Some? {
        assert FirstMatch(raws, key, false).Some?;
        FindSameLabels(m, m', key);
      }
    }
    assert FirstArrivalOrder(raws', m') by {
      forall i, j | 0 <= i < j < |m'|
        ensures ArrivedBefore(raws', m'[i].chapter, m'[j].chapter)
      {
        var ki, kj := m[i].chapter, m[j].chapter;
        assert m'[i].chapter == ki && m'[j].chapter == kj;
        assert ArrivedBefore(raws, ki, kj);
        assert FirstMatch(raws', ki, false) == FirstMatch(raws, ki, false);
        assert FirstMatch(raws', kj, false) == FirstMatch(raws, kj, false);
      }
    }
  }

  /** Appending the entry of a new label keeps the label-only invariant. */
  lemma SkeletonAppend(raws: seq<RawChapter>, m: seq<Chapter>, ch: RawChapter)
    requires Reconciled(raws, m)
    requires HasLabel(ch) && Find(m, ch.chap.value).None?
    requires OthersUnchanged(raws, ch, ch.chap.value)
    requires FirstMatch(raws + [ch], ch.chap.value, false) == Some(|raws|)
    ensures Skeleton(raws + [ch], m + [ToChapter(ch)])
  {
    var c := ToChapter(ch);
    var m' := m + [c];
    assert UniqueLabels(m') by {
      forall i, j | 0 <= i < j < |m'| ensures m'[i].chapter != m'[j].chapter {
        if j == |m| {
          assert m'[i] == m[i];
        }
      }
    }
    assert Complete(raws + [ch], m') by {
      forall other | FirstMatch(raws + [ch], other, false).Some? ensures Find(m', other).Some? {
        FindAppend(m, c, other);
      }
    }
    AppendedLast(raws, m, ch);
  }

  /** A label seen for the first time goes after every label seen before. */
  lemma AppendedLast(raws: seq<RawChapter>, m: seq<Chapter>, ch: RawChapter)
    requires Reconciled(raws, m)
    requires HasLabel(ch) && Find(m, ch.chap.value).None?
    requires OthersUnchanged(raws, ch, ch.chap.value)
    requires FirstMatch(raws + [ch], ch.chap.value, false) == Some(|raws|)
    ensures FirstArrivalOrder(raws + [ch], m + [ToChapter(ch)])
  {
    var key := ch.chap.value;
    var raws' := raws + [ch];
    var m' := m + [ToChapter(ch)];
    forall i, j | 0 <= i < j < |m'|
      ensures ArrivedBefore(raws', m'[i].chapter, m'[j].chapter)
    {
      assert m'[i] == m[i] && m[i].chapter != key;
      assert Preferred(raws, m[i].chapter).Some?;
      if j < |m| {
        assert m'[j] == m[j] && m[j].chapter != key;
      }
    }
  }

  /** Entries other than the one for `key` stay preferred; the one at
      `pos`, built from the new upload, is now the preferred one. */
  lemma EntriesWithNew(raws: seq<RawChapter>, m: seq<Chapter>, ch: RawChapter, m': seq<Chapter>, pos: nat)
    requires EntriesPreferred(raws, m)
    requires HasLabel(ch) && OthersUnchanged(raws, ch, ch.chap.value)
    requires Preferred(raws + [ch], ch.chap.value) == Some(|raws|)
    requires pos < |m'| && m'[pos] == ToChapter(ch)
    requires forall a :: 0 <= a < |m'| && a != pos ==> a < |m| && m'[a] == m[a] && m[a].chapter != ch.chap.value
    ensures EntriesPreferred(raws + [ch], m')
  {
    var raws' := raws + [ch];
    forall a | 0 <= a < |m'|
      ensures Preferred(raws', m'[a].chapter).Some? && m'[a] == ToChapter(raws'[Preferred(raws', m'[a].chapter).value])
    {
      if a != pos {
        var p := Preferred(raws, m[a].chapter).value;
        assert raws'[p] == raws[p];
      } else {
        assert raws'[|raws|] == ch;
      }
    }
  }

  /** When no label's preferred or first upload moved, a reconciled map stays
      reconciled. */
  lemma ForgetLast(raws: seq<RawChapter>, m: seq<Chapter>, ch: RawChapter)
    requires Reconciled(raws, m)
    requires forall key :: Preferred(raws + [ch], key) == Preferred(raws, key)
    requires forall key :: FirstMatch(raws + [ch], key, false) == FirstMatch(raws, key, false)
    ensures Reconciled(raws + [ch], m)
  {
    var raws' := raws + [ch];
    SkeletonTransfer(raws, raws', m, m);
    forall a | 0 <= a < |m|
      ensures Preferred(raws', m[a].chapter).Some? && m[a] == ToChapter(raws'[Preferred(raws', m[a].chapter).value])
    {
      var p := Preferred(raws, m[a].chapter).value;
      assert raws'[p] == raws[p];
    }
  }

  /** The first upload of a label appends an entry. */
  lemma NewLabel(raws: seq<RawChapter>, m: seq<Chapter>, ch: RawChapter)
    requires Reconciled(raws, m)
    requires HasLabel(ch) && Find(m, ch.chap.value).None?
    requires OthersUnchanged(raws, ch, ch.chap.value)
    ensures Reconciled(raws + [ch], Absorb(m, ch))
  {
    var key := ch.chap.value;
    var raws' := raws + [ch];
    var m' := m + [ToChapter(ch)];
    assert FirstMatch(raws, key, false).None?;
    PortugueseMatchIsMatch(raws, key);
    FirstMatchExtend(raws, ch, key, true);
    FirstMatchExtend(raws, ch, key, false);
    assert Absorb(m, ch) == m';
    SkeletonAppend(raws, m, ch);
    EntriesWithNew(raws, m, ch, m', |m|);
  }

  /** A further upload of a known label replaces the entry only to bring in
      the first Portuguese upload. */
  lemma KnownLabel(raws: seq<RawChapter>, m: seq<Chapter>, ch: RawChapter, i: nat)
    requires Reconciled(raws, m)
    requires HasLabel(ch) && Find(m, ch.chap.value) == Some(i)
    requires OthersUnchanged(raws, ch, ch.chap.value)
    ensures Reconciled(raws + [ch], Absorb(m, ch))
  {
    var key := ch.chap.value;
    FirstMatchExtend(raws, ch, key, false);
    assert forall other :: FirstMatch(raws + [ch], other, false) == FirstMatch(raws, other, false);
    if FirstMatch(raws, key, true).None? && IsPortuguese(ch.lang) {
      var p := Preferred(raws, key).value;
      assert m[i] == ToChapter(raws[p]);
      assert !IsPortuguese(raws[p].lang);
      assert Absorb(m, ch) == m[i := ToChapter(ch)];
      UpgradeToPortuguese(raws, m, ch, i);
    } else {
      assert Absorb(m, ch) == m;
      KeepEntry(raws, m, ch, i);
    }
  }

  /** The first Portuguese upload of a known label takes over its entry. */
  lemma UpgradeToPortuguese(raws: seq<RawChapter>, m: seq<Chapter>, ch: RawChapter, i: nat)
    requires Reconciled(raws, m)
    requires HasLabel(ch) && Find(m, ch.chap.value) == Some(i)
    requires OthersUnchanged(raws, ch, ch.chap.value)
    requires FirstMatch(raws, ch.chap.value, true).None? && IsPortuguese(ch.lang)
    requires forall other :: FirstMatch(raws + [ch], other, false) == FirstMatch(raws, other, false)
    ensures Reconciled(raws + [ch], m[i := ToChapter(ch)])
  {
    var key := ch.chap.value;
    FirstMatchExtend(raws, ch, key, true);
    var m' := m[i := ToChapter(ch)];
    SkeletonTransfer(raws, raws + [ch], m, m');
    EntriesWithNew(raws, m, ch, m', i);
  }

  /** Any other further upload of a known label leaves the map as it is. */
  lemma KeepEntry(raws: seq<RawChapter>, m: seq<Chapter>, ch: RawChapter, i: nat)
    requires Reconciled(raws, m)
    requires HasLabel(ch) && Find(m, ch.chap.value) == Some(i)
    requires OthersUnchanged(raws, ch, ch.chap.value)
    requires !(FirstMatch(raws, ch.chap.value, true).None? && IsPortuguese(ch.lang))
    requires forall other :: FirstMatch(raws + [ch], other, false) == FirstMatch(raws, other, false)
    ensures Reconciled(raws + [ch], m)
  {
    var key := ch.chap.value;
    FirstMatchExtend(raws, ch, key, true);
    assert forall other :: Preferred(raws + [ch], other) == Preferred(raws, other);
    ForgetLast(raws, m, ch);
  }

  /** A loop iteration keeps the map reconciled with the uploads seen so
      far. */
  lemma AbsorbPreserves(raws: seq<RawChapter>, m: seq<Chapter>, ch: RawChapter)
    requires Reconciled(raws, m)
    ensures Reconciled(raws + [ch], Absorb(m, ch))
  {
    if !HasLabel(ch) {
      forall key ensures Preferred(raws + [ch], key) == Preferred(raws, key)
        && FirstMatch(raws + [ch], key, false) == FirstMatch(raws, key, false)
      {
        PreferredUnchanged(raws, ch, key);
      }
      ForgetLast(raws, m, ch);
    } else {
      var key := ch.chap.value;
      forall other | other != key ensures Preferred(raws + [ch], other) == Preferred(raws, other)
        && FirstMatch(raws + [ch], other, false) == FirstMatch(raws, other, false)
      {
        PreferredUnchanged(raws, ch, other);
      }
      match Find(m, key)
      case None =>
        NewLabel(raws, m, ch);
      case Some(i) =>
        KnownLabel(raws, m, ch, i);
    }
  }

  /** The `for` loop over the uploads: the insertion-ordered map of entries.
      It holds one entry per key, built from that key's preferred
      upload, for exactly the labels that occur, in first-arrival order. */
  function Reconcile(raws: seq<RawChapter>): (m: seq<Chapter>)
    ensures Reconciled(raws, m)
    ensures |m| <= |raws|
    decreases |raws|
  {
    if |raws| == 0 then []
    else
      var before := raws[..|raws| - 1];
      var m := Reconcile(before);
      AbsorbPreserves(before, m, raws[|raws| - 1]);
      assert before + [raws[|raws| - 1]] == raws;
      Absorb(m, raws[|raws| - 1])
  }

  /** An entry is in Portuguese exactly when its chapter has a Portuguese
      upload, whichever order the uploads came in. */
  lemma PortugueseWhenAvailable(raws: seq<RawChapter>, i: nat)
    requires i < |Reconcile(raws)|
    ensures IsPortuguese(Reconcile(raws)[i].lang) <==> FirstMatch(raws, Reconcile(raws)[i].chapter, true).Some?
  {
    var m := Reconcile(raws);
    var p := Preferred(raws, m[i].chapter).value;
    assert m[i].lang == raws[p].lang;
  }

  function Upload(hid: string, chap: string, lang: string): RawChapter
  {
    RawChapter(hid, Some(chap), None, None, None, Some(lang))
  }

  /** An English and a Portuguese upload of chapter "1": the Portuguese one
      is kept, in either arrival order. */
  lemma PortugueseWinsEitherOrder()
    ensures Reconcile([Upload("a", "1", "en"), Upload("b", "1", "pt-br")]) == [ToChapter(Upload("b", "1", "pt-br"))]
    ensures Reconcile([Upload("b", "1", "pt-br"), Upload("a", "1", "en")]) == [ToChapter(Upload("b", "1", "pt-br"))]
  {
    var en := Upload("a", "1", "en");
    var pt := Upload("b", "1", "pt-br");
    ReconcileSingle(en);
    ReconcileSingle(pt);
    ReconcileSecond(en, pt);
    ReconcileSecond(pt, en);
    assert Find([ToChapter(en)], "1") == Some(0);
    assert Find([ToChapter(pt)], "1") == Some(0);
    assert IsPortuguese(Some("pt-br")) && !IsPortuguese(Some("en"));
  }

  lemma ReconcileSingle(x: RawChapter)
    ensures Reconcile([x]) == Absorb([], x)
  {
    assert [x][..0] == [];
  }

  lemma ReconcileSecond(x: RawChapter, y: RawChapter)
    ensures Reconcile([x, y]) == Absorb(Reconcile([x]), y)
  {
    assert [x, y][..1] == [x];
  }

  // ---------------------------------------------------------------------
  // Ordering: `sort((a, b) => parseFloat(b.chapter) - parseFloat(a.chapter))`

  /** The sort key: the chapter label read by `parseFloat`. */
  function Key(c: Chapter): Number
  {
    ParseFloat(c.chapter)
  }

  /** The comparator as the sort reads it, for a key function `key`:
      negative puts `a` first. With `Key` this is
      `parseFloat(b.chapter) - parseFloat(a.chapter)`. */
  function Comparator(a: Chapter, b: Chapter, key: Chapter -> Number): int
  {
    SortSign(Difference(key(b), key(a)))
  }

  /** Stable insertion of `x` in front of the already sorted `t`: `x` moves
      past exactly the leading entries it compares after. */
  function InsertSorted(x: Chapter, t: seq<Chapter>, key: Chapter -> Number): (r: seq<Chapter>)
    ensures multiset(r) == multiset([x] + t)
    decreases |t|
  {
    if |t| == 0 then [x]
    else if Comparator(x, t[0], key) > 0 then
      assert t == [t[0]] + t[1..];
      [t[0]] + InsertSorted(x, t[1..], key)
    else [x] + t
  }

  /** A stable insertion sort with the comparator for `key`. */
  function SortBy(s: seq<Chapter>, key: Chapter -> Number): (r: seq<Chapter>)
    ensures multiset(r) == multiset(s)
    decreases |s|
  {
    if |s| == 0 then []
    else
      assert s == [s[0]] + s[1..];
      InsertSorted(s[0], SortBy(s[1..], key), key)
  }

  /** The service's sort: by chapter number, highest first. */
  function SortChapters(s: seq<Chapter>): (r: seq<Chapter>)
    ensures multiset(r) == multiset(s)
  {
    SortBy(s, Key)
  }

  /** Every key is a number (possibly infinite). */
  predicate Numeric(s: seq<Chapter>, key: Chapter -> Number)
  {
    forall i :: 0 <= i < |s| ==> !key(s[i]).NaN?
  }

  /** Highest key first. */
  predicate Descending(s: seq<Chapter>, key: Chapter -> Number)
  {
    forall i, j :: 0 <= i < j < |s| ==> !Below(key(s[i]), key(s[j]))
  }

  lemma NotBelowTransitive(a: Number, b: Number, c: Number)
    requires !a.NaN? && !b.NaN? && !c.NaN?
    requires !Below(a, b) && !Below(b, c)
    ensures !Below(a, c)
  {
    BelowIsTotal(a, b);
    if Below(b, a) && Below(a, c) {
      BelowIsTransitive(b, a, c);
    }
  }

  lemma InMultiset(r: seq<Chapter>, s: seq<Chapter>, j: nat)
    requires multiset(r) == multiset(s) && j < |r|
    ensures r[j] in s
  {
    assert r[j] in multiset(r);
  }

  /** An entry not below any later one, in front of a descending list,
      gives a descending list. */
  lemma DescendingCons(h: Chapter, rest: seq<Chapter>, key: Chapter -> Number)
    requires Descending(rest, key)
    requires forall j :: 0 <= j < |rest| ==> !Below(key(h), key(rest[j]))
    ensures Descending([h] + rest, key)
  {
    var r := [h] + rest;
    forall i, j | 0 <= i < j < |r| ensures !Below(key(r[i]), key(r[j])) {
      assert r[j] == rest[j - 1];
      if i > 0 {
        assert r[i] == rest[i - 1];
      }
    }
  }

  /** The tail of a numeric descending list is numeric and descending. */
  lemma DescendingTail(t: seq<Chapter>, key: Chapter -> Number)
    requires |t| > 0 && Numeric(t, key) && Descending(t, key)
    ensures Numeric(t[1..], key) && Descending(t[1..], key)
  {
    var tail := t[1..];
    assert forall k :: 0 <= k < |tail| ==> tail[k] == t[k + 1];
  }

  lemma {:induction false} InsertDescending(x: Chapter, t: seq<Chapter>, key: Chapter -> Number)
    requires !key(x).NaN? && Numeric(t, key) && Descending(t, key)
    ensures Descending(InsertSorted(x, t, key), key)
    decreases |t|
  {
    if |t| > 0 {
      DifferenceSign(key(x), key(t[0]));
      var tail := t[1..];
      if Comparator(x, t[0], key) > 0 {
        assert !Below(key(t[0]), key(x)) by {
          BelowAsymmetric(key(x), key(t[0]));
        }
        DescendingTail(t, key);
        InsertDescending(x, tail, key);
        var rest := InsertSorted(x, tail, key);
        forall j | 0 <= j < |rest| ensures !Below(key(t[0]), key(rest[j])) {
          InMultiset(rest, [x] + tail, j);
          if rest[j] != x {
            var k :| 0 <= k < |tail| && tail[k] == rest[j];
            assert tail[k] == t[k + 1];
          }
        }
        DescendingCons(t[0], rest, key);
      } else {
        forall j | 0 <= j < |t| ensures !Below(key(x), key(t[j])) {
          if j > 0 {
            NotBelowTransitive(key(x), key(t[0]), key(t[j]));
          }
        }
        DescendingCons(x, t, key);
      }
    }
  }

  /** With every label numeric, the sorted list is in non-increasing chapter
      order. */
  lemma {:induction false} SortDescending(s: seq<Chapter>, key: Chapter -> Number)
    requires Numeric(s, key)
    ensures Descending(SortBy(s, key), key)
    decreases |s|
  {
    if |s| > 0 {
      var tail := s[1..];
      assert Numeric(tail, key) by {
        assert forall k :: 0 <= k < |tail| ==> tail[k] == s[k + 1];
      }
      SortDescending(tail, key);
      var sorted := SortBy(tail, key);
      assert Numeric(sorted, key) by {
        forall j | 0 <= j < |sorted| ensures !key(sorted[j]).NaN? {
          InMultiset(sorted, tail, j);
        }
      }
      InsertDescending(s[0], sorted, key);
    }
  }

  /** An entry whose key no entry of a list carries, in front of a list
      with unique keys, keeps keys unique. */
  lemma UniqueCons(h: Chapter, rest: seq<Chapter>)
    requires UniqueLabels(rest) && forall j :: 0 <= j < |rest| ==> rest[j].chapter != h.chapter
    ensures UniqueLabels([h] + rest)
  {
    var r := [h] + rest;
    forall i, j | 0 <= i < j < |r| ensures r[i].chapter != r[j].chapter {
      assert r[j] == rest[j - 1];
      if i > 0 {
        assert r[i] == rest[i - 1];
      }
    }
  }

  lemma {:induction false} InsertKeepsLabelsUnique(x: Chapter, t: seq<Chapter>, key: Chapter -> Number)
    requires UniqueLabels(t) && forall k :: 0 <= k < |t| ==> t[k].chapter != x.chapter
    ensures UniqueLabels(InsertSorted(x, t, key))
    decreases |t|
  {
    if |t| > 0 {
      var tail := t[1..];
      assert forall k :: 0 <= k < |tail| ==> tail[k] == t[k + 1];
      if Comparator(x, t[0], key) > 0 {
        assert UniqueLabels(tail);
        InsertKeepsLabelsUnique(x, tail, key);
        var rest := InsertSorted(x, tail, key);
        forall j | 0 <= j < |rest| ensures rest[j].chapter != t[0].chapter {
          InMultiset(rest, [x] + tail, j);
          if rest[j] != x {
            var k :| 0 <= k < |tail| && tail[k] == rest[j];
          }
        }
        UniqueCons(t[0], rest);
      } else {
        UniqueCons(x, t);
      }
    }
  }

  /** Sorting keeps one entry per label. */
  lemma {:induction false} SortKeepsLabelsUnique(s: seq<Chapter>, key: Chapter -> Number)
    requires UniqueLabels(s)
    ensures UniqueLabels(SortBy(s, key))
    decreases |s|
  {
    if |s| > 0 {
      var tail := s[1..];
      assert UniqueLabels(tail) by {
        assert forall k :: 0 <= k < |tail| ==> tail[k] == s[k + 1];
      }
      SortKeepsLabelsUnique(tail, key);
      var sorted := SortBy(tail, key);
      forall k | 0 <= k < |sorted| ensures sorted[k].chapter != s[0].chapter {
        InMultiset(sorted, tail, k);
        var j :| 0 <= j < |tail| && tail[j] == sorted[k];
        assert tail[j] == s[j + 1];
      }
      InsertKeepsLabelsUnique(s[0], sorted, key);
    }
  }
}

=== FILE: comick.dfy ===
/** The Comick side of services/api.ts: finding a title's Comick id (with a
    local-storage cache), the unified chapter list, and a chapter's page
    images. Every request goes through `fetchWithProxy`; the network is the
    parameter `net`. */
module Comick {
  import opened Basics
  import opened Text
  import opened Types
  import opened UriEncoding
  import opened Http
  import opened Proxy
  import opened LocalStorage
  import opened Store
  import opened Chapters

  const ComickBase: string := "https://api.comick.io"
  const CachePrefix: string := "comick_id_"
  const ImageHost: string := "https://meo.comick.pictures/"

  /** One page image: a direct URL, or a storage key on the image host. */
  datatype ImageDesc = ImageDesc(url: Option<string>, b2key: Option<string>)

  datatype ChapterDetail = ChapterDetail(images: Option<seq<ImageDesc>>)

  /** What `response.json()` yields, as far as the service reads it: an
      array of search hits (only their `hid`), an object that may carry
      `chapters` or `chapter`, or a body that does not parse. */
  datatype ComickBody =
    | JsonArray(hids: seq<string>)
    | JsonObject(chapters: Option<seq<RawChapter>>, chapter: Option<ChapterDetail>)
    | Unparseable

  // ---------------------------------------------------------------------
  // The id cache key: `title.toLowerCase().replace(/[^a-z0-9]/g, '')`

  predicate IsSlugChar(c: char)
  {
    'a' <= c <= 'z' || '0' <= c <= '9'
  }

  /** What one character contributes to the key: lower-cased, then only
      ASCII letters and digits kept. Besides A-Z, two characters lower-case
      to an ASCII letter: U+0130 (to "i" and a combining dot, which is
      dropped) and the Kelvin sign U+212A (to "k"). */
  function SlugOf(c: char): (r: string)
    ensures |r| <= 1 && forall i :: 0 <= i < |r| ==> IsSlugChar(r[i])
  {
    if IsSlugChar(c) then [c]
    else if 'A' <= c <= 'Z' then [(c as int + 32) as char]
    else if c as int == 0x130 then "i"
    else if c as int == 0x212A then "k"
    else []
  }

  function Slug(title: string): (r: string)
    ensures forall i :: 0 <= i < |r| ==> IsSlugChar(r[i])
    ensures |r| <= |title|
    decreases |title|
  {
    if |title| == 0 then []
    else
      var head := SlugOf(title[0]);
      var rest := Slug(title[1..]);
      assert forall i :: |head| <= i < |head + rest| ==> (head + rest)[i] == rest[i - |head|];
      head + rest
  }

  /** The key of a title is the keys of its parts, joined. */
  lemma {:induction false} SlugAppend(a: string, b: string)
    ensures Slug(a + b) == Slug(a) + Slug(b)
    decreases |a|
  {
    if |a| == 0 {
      assert a + b == b;
    } else {
      assert (a + b)[0] == a[0];
      assert (a + b)[1..] == a[1..] + b;
      SlugAppend(a[1..], b);
    }
  }

  /** A text already made of key characters is its own key. */
  lemma {:induction false} SlugOfSlugChars(s: string)
    requires forall i :: 0 <= i < |s| ==> IsSlugChar(s[i])
    ensures Slug(s) == s
    decreases |s|
  {
    if |s| > 0 {
      SlugOfSlugChars(s[1..]);
    }
  }

  /** Deriving the key twice changes nothing. */
  lemma SlugIdempotent(title: string)
    ensures Slug(Slug(title)) == Slug(title)
  {
    SlugOfSlugChars(Slug(title));
  }

  /** ASCII upper case to lower case, everything else as it is. */
  function AsciiLower(s: string): (r: string)
    ensures |r| == |s|
    decreases |s|
  {
    if |s| == 0 then []
    else [if 'A' <= s[0] <= 'Z' then (s[0] as int + 32) as char else s[0]] + AsciiLower(s[1..])
  }

  /** Titles differing only in ASCII letter case share a cache entry. */
  lemma {:induction false} SlugIgnoresCase(s: string)
    ensures Slug(AsciiLower(s)) == Slug(s)
    decreases |s|
  {
    if |s| > 0 {
      var l := AsciiLower(s);
      assert l[1..] == AsciiLower(s[1..]);
      SlugIgnoresCase(s[1..]);
      assert SlugOf(l[0]) == SlugOf(s[0]);
    }
  }

  /** Characters the key drops (spaces, punctuation, other scripts) can be
      inserted anywhere without changing the cache entry. */
  lemma SlugIgnoresDropped(a: string, c: char, b: string)
    requires SlugOf(c) == []
    ensures Slug(a + [c] + b) == Slug(a + b)
  {
    assert Slug([c]) == [] by {
      assert [c][0] == c && [c][1..] == [];
    }
    calc {
      Slug(a + [c] + b);
      { SlugAppend(a + [c], b); }
      Slug(a + [c]) + Slug(b);
      { SlugAppend(a, [c]); }
      Slug(a) + Slug([c]) + Slug(b);
      { assert Slug(a) + Slug([c]) == Slug(a); }
      Slug(a) + Slug(b);
      { SlugAppend(a, b); }
      Slug(a + b);
    }
  }

  function CacheKey(title: string): string
  {
    CachePrefix + Slug(title)
  }

  /** A cache key never names the profile or a comment list. */
  lemma CacheKeyIsOwnFamily(title: string, mangaId: int)
    ensures CacheKey(title) != UserKey
    ensures CacheKey(title) != CommentsKey(mangaId)
  {
    assert CacheKey(title)[0] == 'c';
    assert UserKey[0] == 'f';
    assert CommentsKey(mangaId)[0] == 'f';
  }

  // ---------------------------------------------------------------------
  // findComickId

  function SearchUrl(title: string): string
  {
    ComickBase + "/v1.0/search?q=" + EncodeURIComponent(title) + "&limit=1"
  }

  /** The cached id of a title; an empty cached value counts as absent. */
  function Cached(storage: Storage, title: string): (r: Option<string>)
    ensures r.Some? ==> r.value != ""
  {
    var key := CacheKey(title);
    if key in storage && storage[key].Text? && storage[key].text != "" then Some(storage[key].text) else None
  }

  /** The result of an id lookup: the id, the storage after it, and the
      requests made. */
  datatype Lookup = Lookup(hid: Option<string>, storage: Storage, requests: seq<string>)

  /** `findComickId(title)`: the cached id if there is one; otherwise the
      first search hit, which is then cached. A failed request, an
      unparseable body or an empty hit list gives no id. */
  function FindComickId(title: string, storage: Storage, net: string -> Reply<ComickBody>): (r: Lookup)
    ensures Cached(storage, title).Some? ==> r == Lookup(Cached(storage, title), storage, [])
    ensures Cached(storage, title).None? ==> r.requests == FetchWithProxy(SearchUrl(title), net).requests
    ensures Cached(storage, title).None? && r.hid.Some? ==> r.storage == storage[CacheKey(title) := Text(r.hid.value)]
    ensures Cached(storage, title).None? && r.hid.None? ==> r.storage == storage
    ensures Cached(storage, title).None? ==> var reply := FetchWithProxy(SearchUrl(title), net).reply;
      (r.hid.Some? <==> reply.Response? && reply.body.JsonArray? && |reply.body.hids| > 0) &&
      (r.hid.Some? ==> r.hid.value == reply.body.hids[0])
  {
    match Cached(storage, title)
    case Some(hid) => Lookup(Some(hid), storage, [])
    case None =>
      var f: ProxiedFetch<ComickBody> := FetchWithProxy(SearchUrl(title), net);
      match f.reply
      case Response(_, JsonArray(hids)) =>
        if |hids| > 0 then Lookup(Some(hids[0]), storage[CacheKey(title) := Text(hids[0])], f.requests)
        else Lookup(None, storage, f.requests)
      case _ => Lookup(None, storage, f.requests)
  }

  /** Once a non-empty id was found, asking again is answered from the cache
      without any request, whatever the network does then. */
  lemma SecondLookupIsCached(title: string, storage: Storage, net: string -> Reply<ComickBody>, later: string -> Reply<ComickBody>)
    requires FindComickId(title, storage, net).hid.Some? && FindComickId(title, storage, net).hid.value != ""
    ensures var r := FindComickId(title, storage, net);
      FindComickId(title, r.storage, later) == Lookup(r.hid, r.storage, [])
  {
  }

  /** A lookup leaves the profile and every comment list alone. */
  lemma LookupKeepsUserData(title: string, storage: Storage, net: string -> Reply<ComickBody>, mangaId: int)
    ensures GetUser(FindComickId(title, storage, net).storage) == GetUser(storage)
    ensures GetLocalComments(FindComickId(title, storage, net).storage, mangaId) == GetLocalComments(storage, mangaId)
  {
    CacheKeyIsOwnFamily(title, mangaId);
  }

  // ---------------------------------------------------------------------
  // getChapters

  function ChaptersUrl(hid: string): string
  {
    ComickBase + "/comic/" + hid + "/chapters?lang=pt-br,en&limit=99999"
  }

  /** `data.chapters` of the feed reply, when the reply parsed to an object
      carrying it. The response status is not looked at. */
  function FeedChapters(reply: Reply<ComickBody>): (r: Option<seq<RawChapter>>)
    ensures r.Some? <==> reply.Response? && reply.body.JsonObject? && reply.body.chapters.Some?
    ensures r.Some? ==> r.value == reply.body.chapters.value
  {
    match reply
    case Response(_, JsonObject(Some(raws), _)) => Some(raws)
    case _ => None
  }

  /** The uploads `getChapters` receives for a title: none when no id is
      found (or it is empty), when the feed request fails, or when the body
      has no `chapters`. */
  function Feed(title: string, storage: Storage, net: string -> Reply<ComickBody>): Option<seq<RawChapter>>
  {
    var hid := FindComickId(title, storage, net).hid;
    if hid.None? || hid.value == "" then None
    else FeedChapters(FetchWithProxy(ChaptersUrl(hid.value), net).reply)
  }

  /** What `getChapters` returns: the chapter list and the storage after the
      id lookup. */
  datatype Listing = Listing(chapters: seq<Chapter>, storage: Storage)

  /** `getChapters(title)`: the uploads reconciled to one entry per label
      and sorted by chapter number; an empty list on any failure. */
  function GetChapters(title: string, storage: Storage, net: string -> Reply<ComickBody>): (r: Listing)
    ensures r.storage == FindComickId(title, storage, net).storage
    ensures Feed(title, storage, net).None? ==> r.chapters == []
    ensures Feed(title, storage, net).Some? ==>
      multiset(r.chapters) == multiset(Reconcile(Feed(title, storage, net).value))
  {
    var chapters := match Feed(title, storage, net)
      case None => []
      case Some(raws) => SortChapters(Reconcile(raws));
    Listing(chapters, FindComickId(title, storage, net).storage)
  }

  /** The chapter list of a received feed: one entry per label, each built
      from that label's preferred upload (the first Portuguese one, else the
      first one), an entry for every label, and, when every label reads as
      a number, highest chapter first. */
  lemma ChapterListSpec(title: string, storage: Storage, net: string -> Reply<ComickBody>)
    requires Feed(title, storage, net).Some?
    ensures var raws := Feed(title, storage, net).value;
      var list := GetChapters(title, storage, net).chapters;
      UniqueLabels(list) && EntriesPreferred(raws, list) &&
      (forall key :: FirstMatch(raws, key, false).Some? ==> exists i :: 0 <= i < |list| && list[i].chapter == key) &&
      (Numeric(list, Key) ==> Descending(list, Key))
  {
    var raws := Feed(title, storage, net).value;
    var m := Reconcile(raws);
    assert GetChapters(title, storage, net).chapters == SortBy(m, Key);
    SortedReconciled(raws, m);
  }

  /** Sorting a reconciled list keeps it reconciled, apart from the order,
      and orders it when every label reads as a number. */
  lemma SortedReconciled(raws: seq<RawChapter>, m: seq<Chapter>)
    requires Reconciled(raws, m)
    ensures var list := SortBy(m, Key);
      UniqueLabels(list) && EntriesPreferred(raws, list) &&
      (forall key :: FirstMatch(raws, key, false).Some? ==> exists i :: 0 <= i < |list| && list[i].chapter == key) &&
      (Numeric(list, Key) ==> Descending(list, Key))
  {
    var list := SortBy(m, Key);
    SortKeepsLabelsUnique(m, Key);
    forall i | 0 <= i < |list|
      ensures Preferred(raws, list[i].chapter).Some? && list[i] == ToChapter(raws[Preferred(raws, list[i].chapter).value])
    {
      InMultiset(list, m, i);
    }
    forall key | FirstMatch(raws, key, false).Some?
      ensures exists i :: 0 <= i < |list| && list[i].chapter == key
    {
      var j := Find(m, key).value;
      assert m[j] in multiset(list);
      var i :| 0 <= i < |list| && list[i] == m[j];
    }
    SortedNumericDescends(m);
  }

  /** A sorted list whose labels all read as numbers is highest first. */
  lemma SortedNumericDescends(m: seq<Chapter>)
    ensures Numeric(SortBy(m, Key), Key) ==> Descending(SortBy(m, Key), Key)
  {
    var list := SortBy(m, Key);
    if Numeric(list, Key) {
      assert Numeric(m, Key) by {
        forall j | 0 <= j < |m| ensures !Key(m[j]).NaN? {
          InMultiset(m, list, j);
        }
      }
      SortDescending(m, Key);
    }
  }

  // ---------------------------------------------------------------------
  // getChapterImages

  function ChapterUrl(hid: string): string
  {
    ComickBase + "/chapter/" + hid
  }

  /** The `.map` step: the direct URL if it is non-empty, else the image
      host URL of a non-empty key, else the empty string. */
  function ImageUrl(img: ImageDesc): (u: string)
    ensures u == "" <==> (img.url.None? || img.url.value == "") && (img.b2key.None? || img.b2key.value == "")
    ensures img.url.Some? && img.url.value != "" ==> u == img.url.value
    ensures u != "" ==> (img.url.Some? && u == img.url.value) || (img.b2key.Some? && u == ImageHost + img.b2key.value)
  {
    if img.url.Some? && img.url.value != "" then img.url.value
    else if img.b2key.Some? && img.b2key.value != "" then ImageHost + img.b2key.value
    else ""
  }

  /** `images.map(ImageUrl)`: one URL per image, empty when unusable. */
  function Resolved(images: seq<ImageDesc>): (r: seq<string>)
    ensures |r| == |images| && forall j :: 0 <= j < |images| ==> r[j] == ImageUrl(images[j])
  {
    seq(|images|, j requires 0 <= j < |images| => ImageUrl(images[j]))
  }

  /** How many images have a usable URL or key. */
  function Usable(images: seq<ImageDesc>): nat
    decreases |images|
  {
    if |images| == 0 then 0 else (if ImageUrl(images[0]) == "" then 0 else 1) + Usable(images[1..])
  }

  /** `images.map(ImageUrl).filter(url => url !== '')`: the resolved URLs in
      image order, one for each usable image and none for the others. */
  function PageUrls(images: seq<ImageDesc>): (r: seq<string>)
    ensures |r| == Usable(images) && |r| <= |images|
    ensures forall i :: 0 <= i < |r| ==> r[i] != ""
    ensures IsSubsequence(r, Resolved(images))
    decreases |images|
  {
    if |images| == 0 then []
    else
      var u := ImageUrl(images[0]);
      var rest := PageUrls(images[1..]);
      var all := Resolved(images);
      assert all[0] == u && all[1..] == Resolved(images[1..]);
      if u == "" then rest
      else
        assert forall i :: 1 <= i < |[u] + rest| ==> ([u] + rest)[i] == rest[i - 1];
        assert ([u] + rest)[1..] == rest;
        [u] + rest
  }

  /** Which pages an image list yields, stated per image: an image with a
      usable URL or key contributes exactly one page, any other none. */
  function Pages(img: ImageDesc): (r: seq<string>)
  {
    if img.url.Some? && img.url.value != "" then [img.url.value]
    else if img.b2key.Some? && img.b2key.value != "" then [ImageHost + img.b2key.value]
    else []
  }

  /** The pages of a list are the pages of its images, in order. */
  lemma {:induction false} PageUrlsArePerImage(images: seq<ImageDesc>)
    ensures PageUrls(images) == if |images| == 0 then [] else Pages(images[0]) + PageUrls(images[1..])
    ensures |images| == 1 ==> PageUrls(images) == Pages(images[0])
  {
    if |images| == 1 {
      assert PageUrls(images[1..]) == [];
    }
  }

  /** Splitting the image list splits the pages. */
  lemma {:induction false} PageUrlsAppend(a: seq<ImageDesc>, b: seq<ImageDesc>)
    ensures PageUrls(a + b) == PageUrls(a) + PageUrls(b)
    decreases |a|
  {
    if |a| == 0 {
      assert a + b == b;
    } else {
      assert (a + b)[0] == a[0];
      assert (a + b)[1..] == a[1..] + b;
      PageUrlsAppend(a[1..], b);
    }
  }

  /** `getChapterImages(hid)`: the page URLs of the chapter, or none when the
      request fails, the body does not parse, or it lacks `chapter.images`.
      The response status is not looked at. */
  function GetChapterImages(hid: string, net: string -> Reply<ComickBody>): (r: seq<string>)
    ensures forall i :: 0 <= i < |r| ==> r[i] != ""
    ensures var reply := FetchWithProxy(ChapterUrl(hid), net).reply;
      if reply.Response? && reply.body.JsonObject? && reply.body.chapter.Some? && reply.body.chapter.value.images.Some?
      then r == PageUrls(reply.body.chapter.value.images.value)
      else r == []
  {
    var reply: Reply<ComickBody> := FetchWithProxy(ChapterUrl(hid), net).reply;
    match reply
    case Response(_, JsonObject(_, Some(ChapterDetail(Some(images))))) => PageUrls(images)
    case _ => []
  }
}

=== FILE: content_filter.dfy ===
/** The catalog safety gate `isSafeContent` (services/api.ts). */
module ContentFilter {
  import opened Basics
  import opened Text
  import opened Types

  /** Genre names that make an entry unsafe, matched exactly. */
  const ProhibitedGenres: seq<string> := ["Hentai", "Erotica", "Doujinshi"]

  /** A rating counts as explicit when it contains one of these markers. */
  const RxMarker: string := "Rx"
  const HentaiMarker: string := "Hentai"

  // ---------------------------------------------------------------------
  // The policy, stated declaratively

  /** Some position of the rating starts an explicit marker. */
  ghost predicate ExplicitRating(rating: Option<string>)
  {
    rating.Some? &&
    exists i: nat :: OccursAt(rating.value, RxMarker, i) || OccursAt(rating.value, HentaiMarker, i)
  }

  /** Some genre carries a prohibited name. */
  ghost predicate ProhibitedGenrePresent(genres: Option<seq<Genre>>)
  {
    genres.Some? &&
    exists k :: 0 <= k < |genres.value| &&
      (genres.value[k].name == "Hentai" || genres.value[k].name == "Erotica" || genres.value[k].name == "Doujinshi")
  }

  // ---------------------------------------------------------------------
  // The check as the service performs it

  /** `genres.some(g => prohibited.includes(g.name))`. */
  function AnyProhibited(genres: seq<Genre>): (found: bool)
    ensures found <==> exists k :: 0 <= k < |genres| && genres[k].name in ProhibitedGenres
    decreases |genres|
  {
    if |genres| == 0 then false
    else if genres[0].name in ProhibitedGenres then true
    else
      var rest := AnyProhibited(genres[1..]);
      assert forall k :: 1 <= k < |genres| ==> genres[k] == genres[1..][k - 1];
      rest
  }

  /** `isSafeContent(manga, allowNsfw)`: permitted unconditionally when NSFW
      content is allowed; otherwise refused for an explicit rating or a
      prohibited genre. */
  function IsSafeContent(m: JikanManga, allowNsfw: bool): (safe: bool)
    ensures allowNsfw ==> safe
    ensures !allowNsfw ==> (safe <==> !ExplicitRating(m.rating) && !ProhibitedGenrePresent(m.genres))
  {
    if allowNsfw then true
    else if m.rating.Some? && (Includes(m.rating.value, RxMarker) || Includes(m.rating.value, HentaiMarker)) then false
    else if m.genres.Some? && AnyProhibited(m.genres.value) then false
    else true
  }

  // ---------------------------------------------------------------------
  // The worked cases of the safety policy

  function Entry(genres: Option<seq<Genre>>, rating: Option<string>): JikanManga
  {
    JikanManga(1, "", "", "", "Manga", genres, rating)
  }

  /** A rating of "Rx - Hentai" is refused. */
  lemma RxRatingRefused()
    ensures !IsSafeContent(Entry(None, Some("Rx - Hentai")), false)
  {
    assert OccursAt("Rx - Hentai", RxMarker, 0);
  }

  /** An "Erotica" genre is refused; an "Action" genre alone is admitted. */
  lemma GenreCases()
    ensures !IsSafeContent(Entry(Some([Genre("Erotica")]), None), false)
    ensures IsSafeContent(Entry(Some([Genre("Action")]), None), false)
  {
    var action := Entry(Some([Genre("Action")]), None);
    assert !ProhibitedGenrePresent(action.genres);
  }

  /** Only the exact genre name counts: "hentai" in lower case is admitted. */
  lemma GenreMatchIsExact()
    ensures IsSafeContent(Entry(Some([Genre("hentai")]), Some("PG-13")), false)
  {
    AbsentCharNotIncluded("PG-13", RxMarker, 'R');
    AbsentCharNotIncluded("PG-13", HentaiMarker, 'H');
  }
}

=== FILE: proxy.dfy ===
/** What a `fetch` can come back with. The network is a parameter of every
    operation that uses it: a function from the requested URL to the reply
    that request gets. */
module Http {

  /** A rejected `fetch` (network failure) or a response with a status and a
      body. The body type is the parsed JSON shape of the endpoint. */
  datatype Reply<B> = NetworkError | Response(status: int, body: B)

  /** `response.ok`: a status in the 200-299 range. */
  predicate IsOkStatus(status: int)
  {
    200 <= status <= 299
  }

  predicate IsOk<B>(r: Reply<B>)
  {
    r.Response? && IsOkStatus(r.status)
  }

  /** The throttling answer both upstream APIs give. */
  const TooManyRequests: int := 429
}

/** `fetchWithProxy` (services/api.ts): reach a cross-origin URL through the
    CORS relays in rotation order, then directly. */
module Proxy {
  import opened Basics
  import opened Text
  import opened UriEncoding
  import opened Http

  const CorsProxies: seq<string> := ["https://corsproxy.io/?", "https://api.allorigins.win/raw?url="]

  /** The rotation start. It is never advanced, so every call uses the same
      order. */
  const ProxyIndex: nat := 0

  /** The relay tried at step `i` of a call. */
  function ProxyAt(i: nat): string
  {
    CorsProxies[(ProxyIndex + i) % |CorsProxies|]
  }

  /** The URL sent to a relay: the allorigins relay takes the target
      URL-encoded, any other relay takes it as it is. */
  function RelayUrl(proxy: string, url: string): string
  {
    if Includes(proxy, "allorigins") then proxy + EncodeURIComponent(url) else proxy + url
  }

  /** The URL requested at relay step `k` of a call. */
  function RelayRequest(url: string, k: nat): string
  {
    RelayUrl(ProxyAt(k), url)
  }

  /** The replies of one call, in the order the requests were made. */
  datatype ProxiedFetch<B> = ProxiedFetch(reply: Reply<B>, requests: seq<string>)

  /** The relay requests of one call, in rotation order. */
  function RelayRequests(url: string): (targets: seq<string>)
    ensures |targets| == |CorsProxies|
    ensures forall k :: 0 <= k < |targets| ==> targets[k] == RelayRequest(url, k)
  {
    seq(|CorsProxies|, k requires 0 <= k < |CorsProxies| => RelayRequest(url, k))
  }

  /** Tries `targets` in order and falls back to `direct`. A relay reply that
      is not ok (a 429 included: it is turned into a thrown error after a
      pause) or a network failure moves on to the next target; the direct
      request's reply, whatever it is, is final. */
  function TryInOrder<B>(targets: seq<string>, direct: string, net: string -> Reply<B>): (r: ProxiedFetch<B>)
    ensures 1 <= |r.requests| <= |targets| + 1
    ensures forall k :: 0 <= k < |r.requests| - 1 ==> r.requests[k] == targets[k] && !IsOk(net(targets[k]))
    ensures r.reply == net(r.requests[|r.requests| - 1])
    ensures |r.requests| <= |targets| ==> IsOk(r.reply) && r.requests[|r.requests| - 1] == targets[|r.requests| - 1]
    ensures |r.requests| == |targets| + 1 ==> r.requests[|targets|] == direct
    decreases |targets|
  {
    if |targets| == 0 then ProxiedFetch(net(direct), [direct])
    else
      var reply := net(targets[0]);
      if IsOk(reply) then ProxiedFetch(reply, [targets[0]])
      else
        var rest := TryInOrder(targets[1..], direct, net);
        var requests := [targets[0]] + rest.requests;
        assert forall k :: 1 <= k < |requests| ==> requests[k] == rest.requests[k - 1];
        ProxiedFetch(rest.reply, requests)
  }

  /** `fetchWithProxy(url)`: at most one request per relay and one direct
      request; the first ok relay reply wins, otherwise the direct reply is
      returned after every relay failed. */
  function FetchWithProxy<B>(url: string, net: string -> Reply<B>): (r: ProxiedFetch<B>)
    ensures 1 <= |r.requests| <= |CorsProxies| + 1
    ensures forall k :: 0 <= k < |r.requests| - 1 ==> r.requests[k] == RelayRequest(url, k) && !IsOk(net(r.requests[k]))
    ensures r.reply == net(r.requests[|r.requests| - 1])
    ensures |r.requests| <= |CorsProxies| ==> IsOk(r.reply) && r.requests[|r.requests| - 1] == RelayRequest(url, |r.requests| - 1)
    ensures |r.requests| == |CorsProxies| + 1 ==> r.requests[|CorsProxies|] == url
  {
    TryInOrder(RelayRequests(url), url, net)
  }

  /** The relays are always tried corsproxy.io first, allorigins second. */
  lemma RotationOrderIsFixed()
    ensures ProxyAt(0) == "https://corsproxy.io/?"
    ensures ProxyAt(1) == "https://api.allorigins.win/raw?url="
    ensures forall i: nat :: ProxyAt(i) == ProxyAt(i % 2)
  {
  }

  /** corsproxy.io receives the target as it is. */
  lemma CorsProxyTakesRawTarget(url: string)
    ensures RelayRequest(url, 0) == "https://corsproxy.io/?" + url
  {
    AbsentCharNotIncluded("https://corsproxy.io/?", "allorigins", 'g');
  }

  /** The allorigins relay receives the URL-encoded target, which decodes
      back to the target. */
  lemma AllOriginsTakesEncodedTarget(url: string)
    ensures RelayRequest(url, 1) == "https://api.allorigins.win/raw?url=" + EncodeURIComponent(url)
    ensures DecodeURIComponent(EncodeURIComponent(url)) == Some(url)
  {
    AllOriginsNamed();
    assert ProxyAt(1) == CorsProxies[1];
    DecodeEncodeRoundTrip(url);
  }

  lemma AllOriginsNamed()
    ensures Includes(CorsProxies[1], "allorigins")
  {
    AllOriginsSpelled();
    IncludedBetween("https://api.", "allorigins", ".win/raw?url=");
  }

  lemma AllOriginsSpelled()
    ensures "https://api." + "allorigins" + ".win/raw?url=" == CorsProxies[1]
  {
  }

  /** Trying targets in order stops at the first ok one. */
  lemma FirstOkTargetWins<B>(targets: seq<string>, direct: string, net: string -> Reply<B>, j: nat)
    requires j < |targets| && IsOk(net(targets[j]))
    requires forall k :: 0 <= k < j ==> !IsOk(net(targets[k]))
    ensures TryInOrder(targets, direct, net).requests == targets[..j + 1]
    ensures TryInOrder(targets, direct, net).reply == net(targets[j])
  {
    var r := TryInOrder(targets, direct, net);
    var n := |r.requests| - 1;
    if n < j {
      assert false;
    }
    if n > j {
      assert false;
    }
    assert forall k :: 0 <= k <= j ==> r.requests[k] == targets[k];
  }

  /** If any relay answers ok, the direct request is never made and the
      reply is the first ok relay reply in rotation order. */
  lemma FirstOkRelayWins<B>(url: string, net: string -> Reply<B>, j: nat)
    requires j < |CorsProxies| && IsOk(net(RelayRequest(url, j)))
    requires forall k :: 0 <= k < j ==> !IsOk(net(RelayRequest(url, k)))
    ensures FetchWithProxy(url, net).requests == seq(j + 1, k requires 0 <= k <= j => RelayRequest(url, k))
    ensures FetchWithProxy(url, net).reply == net(RelayRequest(url, j))
  {
    var targets := RelayRequests(url);
    forall k | 0 <= k < j
      ensures !IsOk(net(targets[k]))
    {
      assert targets[k] == RelayRequest(url, k);
    }
    FirstOkTargetWins(targets, url, net, j);
    RelayPrefix(url, j);
  }

  lemma RelayPrefix(url: string, j: nat)
    requires j < |CorsProxies|
    ensures RelayRequests(url)[..j + 1] == seq(j + 1, k requires 0 <= k <= j => RelayRequest(url, k))
  {
  }
}

=== FILE: store.dfy ===
/** The browser's local storage as the services use it: string keys mapped
    to what was serialised under them. Values are kept in their parsed
    shape; what `JSON.stringify` would omit (an undefined field) is an
    absent Option. */
module LocalStorage {
  import opened Basics
  import opened Types

  /** A profile as it was serialised: a profile written by an older version
      of the application may lack any field. */
  datatype StoredUser = StoredUser(
    username: Option<string>,
    description: Option<string>,
    email: Option<string>,
    isLoggedIn: Option<bool>,
    joinedAt: Option<string>,
    provider: Option<AuthProvider>,
    isPremium: Option<bool>,
    avatar: Option<string>,
    nsfwEnabled: Option<bool>,
    dataSaver: Option<bool>,
    notifications: Option<bool>,
    favorites: Option<seq<int>>,
    history: Option<seq<HistoryItem>>)

  /** A stored value: plain text, a profile, or a comment list. */
  datatype Stored = Text(text: string) | UserRecord(user: StoredUser) | CommentList(comments: seq<Comment>)

  type Storage = map<string, Stored>
}

/** The local-first user store (services/store.ts): the profile, the
    simulated sign-in flows, favorites, reading history and per-manga
    comments, all persisted in local storage. Time is a parameter: `now` is
    `Date.now()` and `isoNow` is `new Date().toISOString()`. */
module Store {
  import opened Basics
  import opened Text
  import opened Types
  import opened LocalStorage

  const UserKey: string := "flash_mangas_user"
  const CommentsPrefix: string := "flash_mangas_comments"

  /** Most recent reading-history entries kept. */
  const HistoryLimit: nat := 50

  const AvatarBase: string := "https://api.dicebear.com/7.x/adventurer/svg?seed="

  /** The guest profile shown when nothing is stored. */
  const DefaultUser: User := User(
    "Guest",
    "Just a manga enthusiast exploring the world of Flash Mangas.",
    None, false, None, None, false,
    AvatarBase + "Guest",
    false, None, None, [], [])

  /** The storage key of a manga's comment list. */
  function CommentsKey(mangaId: int): string
  {
    CommentsPrefix + "_" + IntToString(mangaId)
  }

  // ---------------------------------------------------------------------
  // Profile persistence

  /** Field by field, `u` holds the stored record's value where it carries
      one and the value of `defaults` where it does not. */
  predicate StoredFieldsWin(defaults: User, s: StoredUser, u: User)
  {
    (s.username.Some? ==> u.username == s.username.value) && (s.username.None? ==> u.username == defaults.username) &&
    (s.description.Some? ==> u.description == s.description.value) && (s.description.None? ==> u.description == defaults.description) &&
    (s.email.Some? ==> u.email == s.email) && (s.email.None? ==> u.email == defaults.email) &&
    (s.isLoggedIn.Some? ==> u.isLoggedIn == s.isLoggedIn.value) && (s.isLoggedIn.None? ==> u.isLoggedIn == defaults.isLoggedIn) &&
    (s.joinedAt.Some? ==> u.joinedAt == s.joinedAt) && (s.joinedAt.None? ==> u.joinedAt == defaults.joinedAt) &&
    (s.provider.Some? ==> u.provider == s.provider) && (s.provider.None? ==> u.provider == defaults.provider) &&
    (s.isPremium.Some? ==> u.isPremium == s.isPremium.value) && (s.isPremium.None? ==> u.isPremium == defaults.isPremium) &&
    (s.avatar.Some? ==> u.avatar == s.avatar.value) && (s.avatar.None? ==> u.avatar == defaults.avatar) &&
    (s.nsfwEnabled.Some? ==> u.nsfwEnabled == s.nsfwEnabled.value) && (s.nsfwEnabled.None? ==> u.nsfwEnabled == defaults.nsfwEnabled) &&
    (s.dataSaver.Some? ==> u.dataSaver == s.dataSaver) && (s.dataSaver.None? ==> u.dataSaver == defaults.dataSaver) &&
    (s.notifications.Some? ==> u.notifications == s.notifications) && (s.notifications.None? ==> u.notifications == defaults.notifications) &&
    (s.favorites.Some? ==> u.favorites == s.favorites.value) && (s.favorites.None? ==> u.favorites == defaults.favorites) &&
    (s.history.Some? ==> u.history == s.history.value) && (s.history.None? ==> u.history == defaults.history)
  }

  /** One field of a spread: the stored value when present, else the default. */
  function Override<T>(stored: Option<T>, default: T): (r: T)
    ensures stored.Some? ==> r == stored.value
    ensures stored.None? ==> r == default
  {
    if stored.Some? then stored.value else default
  }

  /** The same for a field that may itself be undefined: a stored value
      replaces the default, a missing one keeps it. */
  function OverrideOptional<T>(stored: Option<T>, default: Option<T>): (r: Option<T>)
    ensures stored.Some? ==> r == stored
    ensures stored.None? ==> r == default
  {
    if stored.Some? then stored else default
  }

  /** `{ ...defaults, ...stored }`: every field present in the stored
      profile wins, every missing one comes from `defaults`. */
  function Merge(defaults: User, s: StoredUser): (u: User)
    ensures StoredFieldsWin(defaults, s, u)
  {
    User(
      Override(s.username, defaults.username),
      Override(s.description, defaults.description),
      OverrideOptional(s.email, defaults.email),
      Override(s.isLoggedIn, defaults.isLoggedIn),
      OverrideOptional(s.joinedAt, defaults.joinedAt),
      OverrideOptional(s.provider, defaults.provider),
      Override(s.isPremium, defaults.isPremium),
      Override(s.avatar, defaults.avatar),
      Override(s.nsfwEnabled, defaults.nsfwEnabled),
      OverrideOptional(s.dataSaver, defaults.dataSaver),
      OverrideOptional(s.notifications, defaults.notifications),
      Override(s.favorites, defaults.favorites),
      Override(s.history, defaults.history))
  }

  /** `JSON.stringify(user)`: every field that is defined. */
  function Serialize(u: User): StoredUser
  {
    StoredUser(Some(u.username), Some(u.description), u.email, Some(u.isLoggedIn), u.joinedAt,
      u.provider, Some(u.isPremium), Some(u.avatar), Some(u.nsfwEnabled), u.dataSaver,
      u.notifications, Some(u.favorites), Some(u.history))
  }

  /** `getUser()`: the stored profile completed with the guest profile's
      fields, or the guest profile when none is stored. */
  function GetUser(storage: Storage): (u: User)
    ensures (UserKey !in storage || !storage[UserKey].UserRecord?) ==> u == DefaultUser
    ensures UserKey in storage && storage[UserKey].UserRecord? && storage[UserKey].user.favorites.None? ==> u.favorites == []
    ensures UserKey in storage && storage[UserKey].UserRecord? && storage[UserKey].user.history.None? ==> u.history == []
    ensures UserKey in storage && storage[UserKey].UserRecord? ==> StoredFieldsWin(DefaultUser, storage[UserKey].user, u)
  {
    if UserKey in storage && storage[UserKey].UserRecord? then Merge(DefaultUser, storage[UserKey].user)
    else DefaultUser
  }

  /** Every key other than `key` is present in `after` exactly when it is
      in `before`, with the same value. */
  ghost predicate OnlyKeyChanged(before: Storage, after: Storage, key: string)
  {
    (forall k :: k != key ==> (k in after <==> k in before)) &&
    (forall k :: k != key && k in after ==> after[k] == before[k])
  }

  /** Only the profile key may differ. */
  ghost predicate OnlyProfileChanged(before: Storage, after: Storage)
  {
    OnlyKeyChanged(before, after, UserKey)
  }

  /** `saveUser(user)`: writes the profile and nothing else. */
  function SaveUser(storage: Storage, u: User): (r: Storage)
    ensures UserKey in r && r[UserKey] == UserRecord(Serialize(u))
    ensures OnlyProfileChanged(storage, r)
  {
    storage[UserKey := UserRecord(Serialize(u))]
  }

  /** A saved profile reads back unchanged. */
  lemma SaveThenGet(storage: Storage, u: User)
    ensures GetUser(SaveUser(storage, u)) == u
  {
  }

  /** A profile saved by an older version without favorites or history reads
      back with both empty and every stored field kept. */
  lemma OldProfileGainsNewFields(storage: Storage, s: StoredUser)
    requires UserKey in storage && storage[UserKey] == UserRecord(s)
    requires s.username.Some? && s.favorites.None? && s.history.None?
    ensures GetUser(storage).username == s.username.value
    ensures GetUser(storage).favorites == [] && GetUser(storage).history == []
  {
  }

  // ---------------------------------------------------------------------
  // Simulated authentication

  /** What a sign-in flow returns: the new profile and the storage it was
      saved to. */
  datatype SignedIn = SignedIn(user: User, storage: Storage)

  /** `loginUser(email)`: the current profile signed in by email, with the
      user name taken before the first `@`. */
  function LoginUser(storage: Storage, email: string, isoNow: string): (r: SignedIn)
    ensures r.user.username == BeforeFirst(email, '@')
    ensures r.user.email == Some(email) && r.user.isLoggedIn && r.user.provider == Some(Email)
    ensures r.user.joinedAt == Some(isoNow) && r.user.avatar == AvatarBase + email
    ensures r.user.favorites == GetUser(storage).favorites && r.user.history == GetUser(storage).history
    ensures r.user.isPremium == GetUser(storage).isPremium && r.user.nsfwEnabled == GetUser(storage).nsfwEnabled
    ensures r.user == GetUser(storage).(username := r.user.username, email := Some(email), isLoggedIn := true,
      provider := Some(Email), joinedAt := Some(isoNow), avatar := r.user.avatar)
    ensures GetUser(r.storage) == r.user && OnlyProfileChanged(storage, r.storage)
  {
    var current := GetUser(storage);
    var updated := current.(username := BeforeFirst(email, '@'), email := Some(email), isLoggedIn := true,
      provider := Some(Email), joinedAt := Some(isoNow), avatar := AvatarBase + email);
    SignedIn(updated, SaveUser(storage, updated))
  }

  /** `signupUser(email, username)`: as sign-in, with a chosen user name that
      also seeds the avatar. */
  function SignupUser(storage: Storage, email: string, username: string, isoNow: string): (r: SignedIn)
    ensures r.user.username == username && r.user.avatar == AvatarBase + username
    ensures r.user.email == Some(email) && r.user.isLoggedIn && r.user.provider == Some(Email)
    ensures r.user.joinedAt == Some(isoNow)
    ensures r.user.favorites == GetUser(storage).favorites && r.user.history == GetUser(storage).history
    ensures r.user == GetUser(storage).(username := username, email := Some(email), isLoggedIn := true,
      provider := Some(Email), joinedAt := Some(isoNow), avatar := r.user.avatar)
    ensures GetUser(r.storage) == r.user && OnlyProfileChanged(storage, r.storage)
  {
    var current := GetUser(storage);
    var updated := current.(username := username, email := Some(email), isLoggedIn := true,
      provider := Some(Email), joinedAt := Some(isoNow), avatar := AvatarBase + username);
    SignedIn(updated, SaveUser(storage, updated))
  }

  /** `googleLogin()`: a fixed Google identity, never premium. */
  function GoogleLogin(storage: Storage, isoNow: string): (r: SignedIn)
    ensures r.user.username == "Google User" && r.user.email == Some("user@gmail.com")
    ensures r.user.isLoggedIn && r.user.provider == Some(Google) && !r.user.isPremium
    ensures r.user.joinedAt == Some(isoNow) && r.user.avatar == AvatarBase + "GoogleUser"
    ensures r.user.favorites == GetUser(storage).favorites && r.user.history == GetUser(storage).history
    ensures r.user == GetUser(storage).(username := r.user.username, email := r.user.email, isLoggedIn := true,
      provider := Some(Google), joinedAt := Some(isoNow), avatar := r.user.avatar, isPremium := false)
    ensures GetUser(r.storage) == r.user && OnlyProfileChanged(storage, r.storage)
  {
    var current := GetUser(storage);
    var updated := current.(username := "Google User", email := Some("user@gmail.com"), isLoggedIn := true,
      provider := Some(Google), joinedAt := Some(isoNow), avatar := AvatarBase + "GoogleUser",
      isPremium := false);
    SignedIn(updated, SaveUser(storage, updated))
  }

  /** `logoutUser()`: forgets the profile and nothing else. */
  function LogoutUser(storage: Storage): (r: Storage)
    ensures UserKey !in r
    ensures OnlyProfileChanged(storage, r)
  {
    storage - {UserKey}
  }

  /** After signing out the guest profile is shown again, whatever happened
      before. */
  lemma LogoutRestoresGuest(storage: Storage)
    ensures GetUser(LogoutUser(storage)) == DefaultUser
  {
  }

  /** Signing in by email yields the same user name as splitting the address
      at its first `@`: "ana@mail.com" signs in as "ana". */
  lemma LoginNameExample()
    ensures LoginUser(map[], "ana@mail.com", "t").user.username == "ana"
  {
    assert "ana@mail.com"[3] == '@';
  }

  // ---------------------------------------------------------------------
  // Favorites

  /** Removes every copy of `id` (`filter(x => x !== id)`). */
  function Without(favs: seq<int>, id: int): (r: seq<int>)
    ensures id !in r
    ensures forall x :: x != id ==> multiset(r)[x] == multiset(favs)[x]
    ensures IsSubsequence(r, favs)
    decreases |favs|
  {
    if |favs| == 0 then []
    else
      assert favs == [favs[0]] + favs[1..];
      var rest := Without(favs[1..], id);
      if favs[0] == id then
        assert IsSubsequence(rest, favs) by { SubsequenceSkip(rest, favs); }
        rest
      else
        assert ([favs[0]] + rest)[1..] == rest;
        [favs[0]] + rest
  }

  lemma SubsequenceSkip(a: seq<int>, b: seq<int>)
    requires |b| > 0 && IsSubsequence(a, b[1..])
    ensures IsSubsequence(a, b)
  {
  }

  /** The favorites after a toggle: `id` removed if present, appended at the
      end otherwise; every other id keeps its multiplicity. */
  function Toggle(favs: seq<int>, id: int): (r: seq<int>)
    ensures id in r <==> id !in favs
    ensures forall x :: x != id ==> multiset(r)[x] == multiset(favs)[x]
    ensures id !in favs ==> |r| == |favs| + 1 && r[..|favs|] == favs
    ensures id in favs ==> IsSubsequence(r, favs)
  {
    if id in favs then Without(favs, id) else favs + [id]
  }

  /** Toggling an id that was not a favorite twice restores the list. */
  lemma ToggleTwice(favs: seq<int>, id: int)
    requires id !in favs
    ensures Toggle(Toggle(favs, id), id) == favs
  {
    WithoutAbsent(favs, id);
    WithoutAppended(favs, id);
  }

  lemma {:induction false} WithoutAbsent(favs: seq<int>, id: int)
    requires id !in favs
    ensures Without(favs, id) == favs
    decreases |favs|
  {
    if |favs| > 0 {
      WithoutAbsent(favs[1..], id);
    }
  }

  lemma {:induction false} WithoutAppended(favs: seq<int>, id: int)
    ensures Without(favs + [id], id) == Without(favs, id)
    decreases |favs|
  {
    if |favs| == 0 {
      assert Without([id][1..], id) == [];
    } else {
      assert (favs + [id])[1..] == favs[1..] + [id];
      WithoutAppended(favs[1..], id);
    }
  }

  /** `toggleFavorite(id)` on the current profile. */
  function ToggleFavorite(storage: Storage, id: int): (r: Storage)
    ensures GetUser(r).favorites == Toggle(GetUser(storage).favorites, id)
    ensures GetUser(r) == GetUser(storage).(favorites := GetUser(r).favorites)
    ensures OnlyProfileChanged(storage, r)
  {
    var user := GetUser(storage);
    SaveUser(storage, user.(favorites := Toggle(user.favorites, id)))
  }

  // ---------------------------------------------------------------------
  // Reading history

  /** The position of the first entry for `chapterId`. */
  function FindVisit(h: seq<HistoryItem>, chapterId: string): (r: Option<nat>)
    ensures r.Some? ==> r.value < |h| && h[r.value].chapterId == chapterId
    ensures r.Some? ==> forall k :: 0 <= k < r.value ==> h[k].chapterId != chapterId
    ensures r.None? ==> forall k :: 0 <= k < |h| ==> h[k].chapterId != chapterId
    decreases |h|
  {
    if |h| == 0 then None
    else if h[0].chapterId == chapterId then Some(0)
    else
      var rest := FindVisit(h[1..], chapterId);
      if rest.Some? then Some(rest.value + 1) else None
  }

  /** `splice` then `unshift`: the earlier entry for the same chapter (the
      first one) removed and the visit put in front. */
  function MoveToFront(h: seq<HistoryItem>, item: HistoryItem): (r: seq<HistoryItem>)
    ensures |r| == |h| + (if FindVisit(h, item.chapterId).Some? then 0 else 1) && r[0] == item
    ensures FindVisit(h, item.chapterId).None? ==> r[1..] == h
    ensures FindVisit(h, item.chapterId).Some? ==>
      var k := FindVisit(h, item.chapterId).value;
      r[1..] == h[..k] + h[k + 1..]
  {
    var kept := match FindVisit(h, item.chapterId)
      case None => h
      case Some(k) => h[..k] + h[k + 1..];
    var full := [item] + kept;
    assert full[1..] == kept;
    full
  }

  /** The history after a visit: the earlier entry for the same chapter (the
      first one) removed, the visit put in front, then cut to the most
      recent `HistoryLimit` entries. */
  function RecordVisit(h: seq<HistoryItem>, item: HistoryItem): (r: seq<HistoryItem>)
    ensures 1 <= |r| <= HistoryLimit && r[0] == item
    ensures |r| == if FindVisit(h, item.chapterId).Some? then Min(HistoryLimit, |h|) else Min(HistoryLimit, |h| + 1)
    ensures FindVisit(h, item.chapterId).None? ==> r[1..] == h[..|r| - 1]
    ensures FindVisit(h, item.chapterId).Some? ==>
      var k := FindVisit(h, item.chapterId).value;
      r[1..] == (h[..k] + h[k + 1..])[..|r| - 1]
  {
    var full := MoveToFront(h, item);
    full[..Min(HistoryLimit, |full|)]
  }

  /** A visit invents no entry and reorders none: the entries after the
      new one are some of the earlier entries, in their earlier order. */
  lemma VisitKeepsOrder(h: seq<HistoryItem>, item: HistoryItem)
    ensures IsSubsequence(RecordVisit(h, item)[1..], h)
    ensures forall v :: v in RecordVisit(h, item)[1..] ==> v in h
  {
    var full := MoveToFront(h, item);
    var r := RecordVisit(h, item);
    if FindVisit(h, item.chapterId).Some? {
      SubsequenceDropOne(h, FindVisit(h, item.chapterId).value);
    } else {
      SubsequenceReflexive(h);
    }
    assert IsSubsequence(full[1..], h);
    SubsequencePrefix(full[1..], h, |r| - 1);
    assert r[1..] == full[1..][..|r| - 1];
    SubsequenceMembers(r[1..], h);
  }

  function Min(a: int, b: int): int
  {
    if a <= b then a else b
  }

  /** One entry per chapter. */
  predicate DistinctVisits(h: seq<HistoryItem>)
  {
    forall i, j :: 0 <= i < j < |h| ==> h[i].chapterId != h[j].chapterId
  }

  /** A history with one entry per chapter keeps that property: revisiting a
      chapter moves it to the front instead of duplicating it. */
  lemma VisitKeepsDistinct(h: seq<HistoryItem>, item: HistoryItem)
    requires DistinctVisits(h)
    ensures DistinctVisits(RecordVisit(h, item))
  {
    var r := RecordVisit(h, item);
    var kept := match FindVisit(h, item.chapterId)
      case None => h
      case Some(k) => h[..k] + h[k + 1..];
    assert r[1..] == kept[..|r| - 1];
    forall i, j | 0 <= i < j < |r| ensures r[i].chapterId != r[j].chapterId {
      assert r[j] == kept[j - 1];
      match FindVisit(h, item.chapterId)
      case None =>
        if i > 0 {
          assert r[i] == h[i - 1] && r[j] == h[j - 1];
        }
      case Some(k) =>
        var a := if j - 1 < k then j - 1 else j;
        assert kept[j - 1] == h[a];
        if i == 0 {
          assert a != k;
        } else {
          var b := if i - 1 < k then i - 1 else i;
          assert kept[i - 1] == h[b];
          assert b < a;
        }
    }
  }

  /** `addToHistory(...)` on the current profile. */
  function AddToHistory(storage: Storage, malId: int, chapterId: string, title: string, chapterNum: string, now: int): (r: Storage)
    ensures GetUser(r).history == RecordVisit(GetUser(storage).history, HistoryItem(malId, chapterId, now, title, chapterNum))
    ensures GetUser(r) == GetUser(storage).(history := GetUser(r).history)
    ensures OnlyProfileChanged(storage, r)
  {
    var user := GetUser(storage);
    SaveUser(storage, user.(history := RecordVisit(user.history, HistoryItem(malId, chapterId, now, title, chapterNum))))
  }

  // ---------------------------------------------------------------------
  // Comments

  /** `getLocalComments(mangaId)`: the stored list, or none. */
  function GetLocalComments(storage: Storage, mangaId: int): (cs: seq<Comment>)
    ensures CommentsKey(mangaId) !in storage ==> cs == []
    ensures CommentsKey(mangaId) in storage && storage[CommentsKey(mangaId)].CommentList? ==> cs == storage[CommentsKey(mangaId)].comments
  {
    var key := CommentsKey(mangaId);
    if key in storage && storage[key].CommentList? then storage[key].comments else []
  }

  /** What `addLocalComment` returns: the updated list and the storage it
      was written to. */
  datatype Posted = Posted(comments: seq<Comment>, storage: Storage)

  /** `addLocalComment(mangaId, text)`: a new comment by the current profile,
      with no likes, put in front of the manga's list. */
  function AddLocalComment(storage: Storage, mangaId: int, text: string, now: int, isoNow: string): (r: Posted)
    ensures |r.comments| == |GetLocalComments(storage, mangaId)| + 1
    ensures r.comments[1..] == GetLocalComments(storage, mangaId)
    ensures r.comments[0].text == text && r.comments[0].likes == 0 && r.comments[0].timestamp == isoNow
    ensures r.comments[0].username == GetUser(storage).username && r.comments[0].avatar == GetUser(storage).avatar
    ensures r.comments[0].id == IntToString(now)
    ensures GetLocalComments(r.storage, mangaId) == r.comments
    ensures OnlyKeyChanged(storage, r.storage, CommentsKey(mangaId))
  {
    var user := GetUser(storage);
    var comment := Comment(IntToString(now), user.username, user.avatar, text, isoNow, 0);
    var comments := [comment] + GetLocalComments(storage, mangaId);
    Posted(comments, storage[CommentsKey(mangaId) := CommentList(comments)])
  }

  /** Distinct mangas have distinct comment keys, and no comment key is the
      profile key. */
  lemma CommentKeysDistinct(a: int, b: int)
    ensures CommentsKey(a) == CommentsKey(b) ==> a == b
    ensures CommentsKey(a) != UserKey
  {
    if CommentsKey(a) == CommentsKey(b) {
      CommentKeySuffix(a);
      CommentKeySuffix(b);
      IntToStringInjective(a, b);
    }
    CommentKeyNotProfile(a);
  }

  lemma CommentKeySuffix(a: int)
    ensures |CommentsPrefix + "_"| <= |CommentsKey(a)|
    ensures IntToString(a) == CommentsKey(a)[|CommentsPrefix + "_"|..]
  {
    var p := CommentsPrefix + "_";
    assert CommentsKey(a) == p + IntToString(a);
  }

  lemma CommentKeyNotProfile(a: int)
    ensures CommentsKey(a) != UserKey
  {
    assert CommentsKey(a)[13] == 'c';
  }

  /** Commenting on one manga leaves the profile and every other manga's
      comments as they were. */
  lemma CommentTouchesOnlyItsManga(storage: Storage, mangaId: int, text: string, now: int, isoNow: string, other: int)
    requires other != mangaId
    ensures GetLocalComments(AddLocalComment(storage, mangaId, text, now, isoNow).storage, other)
      == GetLocalComments(storage, other)
    ensures GetUser(AddLocalComment(storage, mangaId, text, now, isoNow).storage) == GetUser(storage)
  {
    CommentKeysDistinct(mangaId, other);
    CommentKeysDistinct(mangaId, mangaId);
  }
}

/** The store as written, where the guest profile is one shared mutable
    object: `getUser()` returns that very object when nothing is stored,
    and a merged copy sharing its `favorites` and `history` arrays when the
    stored profile lacks them. `toggleFavorite` and `addToHistory` then
    change the guest profile itself, which outlives a sign-out. */
module StoreAsWritten {
  import opened Basics
  import opened Types
  import opened LocalStorage
  import opened Store

  /** Local storage together with the in-memory guest profile. */
  datatype Session = Session(storage: Storage, guest: User)

  predicate HasStoredUser(storage: Storage)
  {
    UserKey in storage && storage[UserKey].UserRecord?
  }

  /** `getUser()` against the current guest object. */
  function GetUserShared(s: Session): (u: User)
    ensures !HasStoredUser(s.storage) ==> u == s.guest
    ensures HasStoredUser(s.storage) ==> StoredFieldsWin(s.guest, s.storage[UserKey].user, u)
  {
    if HasStoredUser(s.storage) then Merge(s.guest, s.storage[UserKey].user) else s.guest
  }

  /** `toggleFavorite(id)` as written: with no stored profile the guest
      object is the one changed; with a stored profile lacking favorites,
      `push` appends to the guest's own array. */
  function ToggleFavoriteShared(s: Session, id: int): (r: Session)
    ensures GetUserShared(r).favorites == Toggle(GetUserShared(s).favorites, id)
    ensures !HasStoredUser(s.storage) ==> r.guest == s.guest.(favorites := Toggle(s.guest.favorites, id))
    ensures HasStoredUser(s.storage) && s.storage[UserKey].user.favorites.None? ==>
      r.guest == s.guest.(favorites := if id in s.guest.favorites then s.guest.favorites else s.guest.favorites + [id])
    ensures HasStoredUser(s.storage) && s.storage[UserKey].user.favorites.Some? ==> r.guest == s.guest
  {
    var user := GetUserShared(s);
    var updated := user.(favorites := Toggle(user.favorites, id));
    var guest :=
      if !HasStoredUser(s.storage) then updated
      else if s.storage[UserKey].user.favorites.None? && id !in user.favorites then
        s.guest.(favorites := s.guest.favorites + [id])
      else s.guest;
    Session(SaveUser(s.storage, updated), guest)
  }

  /** `addToHistory(...)` as written: with no stored profile the guest
      object receives the new history; with a stored profile lacking
      history, `splice` and `unshift` rewrite the guest's own array. */
  function AddToHistoryShared(s: Session, item: HistoryItem): (r: Session)
    ensures GetUserShared(r).history == RecordVisit(GetUserShared(s).history, item)
    ensures !HasStoredUser(s.storage) ==> r.guest == s.guest.(history := RecordVisit(s.guest.history, item))
    ensures HasStoredUser(s.storage) && s.storage[UserKey].user.history.None? ==>
      r.guest == s.guest.(history := MoveToFront(s.guest.history, item)) &&
      RecordVisit(s.guest.history, item) == r.guest.history[..Min(HistoryLimit, |r.guest.history|)]
    ensures HasStoredUser(s.storage) && s.storage[UserKey].user.history.Some? ==> r.guest == s.guest
  {
    var user := GetUserShared(s);
    var updated := user.(history := RecordVisit(user.history, item));
    var guest :=
      if !HasStoredUser(s.storage) then updated
      else if s.storage[UserKey].user.history.None? then s.guest.(history := MoveToFront(user.history, item))
      else s.guest;
    Session(SaveUser(s.storage, updated), guest)
  }

  /** `logoutUser()`: the guest object is untouched. */
  function LogoutShared(s: Session): (r: Session)
    ensures r.guest == s.guest && !HasStoredUser(r.storage)
  {
    Session(LogoutUser(s.storage), s.guest)
  }

  /** A guest favorites manga 5 and then signs out: the guest profile shown
      afterwards still lists manga 5, so it is no longer the default one. */
  lemma GuestFavoriteSurvivesLogout()
    ensures GetUserShared(LogoutShared(ToggleFavoriteShared(Session(map[], DefaultUser), 5))).favorites == [5]
    ensures GetUserShared(LogoutShared(ToggleFavoriteShared(Session(map[], DefaultUser), 5))) != DefaultUser
  {
  }

  /** A guest reads a chapter and then signs out: the guest profile shown
      afterwards still carries that reading history. */
  lemma GuestHistorySurvivesLogout(item: HistoryItem)
    ensures GetUserShared(LogoutShared(AddToHistoryShared(Session(map[], DefaultUser), item))).history == [item]
  {
    assert RecordVisit([], item) == [item];
  }

  /** While a complete profile is stored and the guest object is pristine,
      the shared-object store behaves as the model of `Store`. */
  lemma SharedAgreesWhenProfileComplete(storage: Storage, id: int, item: HistoryItem)
    requires HasStoredUser(storage)
    requires storage[UserKey].user.favorites.Some? && storage[UserKey].user.history.Some?
    ensures ToggleFavoriteShared(Session(storage, DefaultUser), id) == Session(ToggleFavorite(storage, id), DefaultUser)
    ensures AddToHistoryShared(Session(storage, DefaultUser), item)
      == Session(AddToHistory(storage, item.malId, item.chapterId, item.title, item.chapterNum, item.timestamp), DefaultUser)
  {
  }
}

=== FILE: text.dfy ===
/** String operations the services use: substring search
    (`String.prototype.includes`), decimal rendering of numbers inside
    template literals, `Array.prototype.join` and `split(c)[0]`. */
module Text {

  /** `needle` occurs in `s` starting at index `i`. */
  predicate OccursAt(s: string, needle: string, i: nat)
  {
    i + |needle| <= |s| && s[i..i + |needle|] == needle
  }

  /** JavaScript's `s.includes(needle)`, as a left-to-right scan. */
  function Includes(s: string, needle: string): (r: bool)
    ensures r <==> exists i: nat :: OccursAt(s, needle, i)
    decreases |s|
  {
    if |needle| > |s| then
      NoOccurrenceInShort(s, needle);
      false
    else if s[..|needle|] == needle then
      assert OccursAt(s, needle, 0);
      true
    else
      var rest := Includes(s[1..], needle);
      ShiftOccurrence(s, needle);
      rest
  }

  lemma NoOccurrenceInShort(s: string, needle: string)
    requires |needle| > |s|
    ensures forall i: nat :: !OccursAt(s, needle, i)
  {
  }

  /** An occurrence in `s` is either at index 0 or an occurrence in `s[1..]`
      shifted by one. */
  lemma ShiftOccurrence(s: string, needle: string)
    requires |needle| <= |s|
    requires s[..|needle|] != needle
    ensures (exists i: nat :: OccursAt(s, needle, i)) <==> (exists j: nat :: OccursAt(s[1..], needle, j))
  {
    forall i: nat | OccursAt(s, needle, i)
      ensures OccursAt(s[1..], needle, i - 1)
    {
      assert i != 0;
      assert s[1..][i - 1..i - 1 + |needle|] == s[i..i + |needle|];
    }
    forall j: nat | OccursAt(s[1..], needle, j)
      ensures OccursAt(s, needle, j + 1)
    {
      assert s[1..][j..j + |needle|] == s[j + 1..j + 1 + |needle|];
    }
  }

  /** A needle holding a character that `s` lacks never occurs in `s`. */
  lemma AbsentCharNotIncluded(s: string, needle: string, c: char)
    requires c in needle && c !in s
    ensures !Includes(s, needle)
  {
    var k :| 0 <= k < |needle| && needle[k] == c;
    forall i: nat | i + |needle| <= |s|
      ensures !OccursAt(s, needle, i)
    {
      assert s[i..i + |needle|][k] == s[i + k];
    }
  }

  /** A needle placed between any two strings is included in the result. */
  lemma IncludedBetween(a: string, needle: string, b: string)
    ensures Includes(a + needle + b, needle)
  {
    assert (a + needle + b)[|a|..|a| + |needle|] == needle;
    assert OccursAt(a + needle + b, needle, |a|);
  }

  predicate IsDigit(c: char)
  {
    '0' <= c <= '9'
  }

  predicate AllDigits(s: string)
  {
    forall i :: 0 <= i < |s| ==> IsDigit(s[i])
  }

  function DigitChar(d: nat): (c: char)
    requires d < 10
    ensures IsDigit(c) && c as int - '0' as int == d
  {
    ('0' as int + d) as char
  }

  /** The numeric value of a run of decimal digits (empty run is 0). */
  function DigitsValue(s: string): nat
    requires AllDigits(s)
    decreases |s|
  {
    if |s| == 0 then 0
    else DigitsValue(s[..|s| - 1]) * 10 + (s[|s| - 1] as int - '0' as int)
  }

  /** The decimal rendering JavaScript gives a non-negative integer in a
      template literal: no sign, no leading zero. */
  function NatToString(n: nat): (s: string)
    ensures |s| >= 1 && AllDigits(s)
    ensures |s| > 1 ==> s[0] != '0'
    decreases n
  {
    if n < 10 then [DigitChar(n)]
    else NatToString(n / 10) + [DigitChar(n % 10)]
  }

  /** Reading back the digits gives the number rendered. */
  lemma {:induction false} NatToStringRoundTrip(n: nat)
    ensures DigitsValue(NatToString(n)) == n
    decreases n
  {
    if n >= 10 {
      NatToStringRoundTrip(n / 10);
      var s := NatToString(n);
      assert s[..|s| - 1] == NatToString(n / 10);
    }
  }

  /** Distinct numbers render differently. */
  lemma NatToStringInjective(a: nat, b: nat)
    requires NatToString(a) == NatToString(b)
    ensures a == b
  {
    NatToStringRoundTrip(a);
    NatToStringRoundTrip(b);
  }

  /** An integer in a template literal: a minus sign before the magnitude. */
  function IntToString(n: int): (s: string)
    ensures |s| >= 1
    ensures n >= 0 <==> s[0] != '-'
  {
    if n < 0 then "-" + NatToString(-n) else NatToString(n)
  }

  /** Distinct integers render differently. */
  lemma IntToStringInjective(a: int, b: int)
    requires IntToString(a) == IntToString(b)
    ensures a == b
  {
    if a < 0 && b < 0 {
      assert NatToString(-a) == IntToString(a)[1..];
      assert NatToString(-b) == IntToString(b)[1..];
      NatToStringInjective(-a, -b);
    } else if a >= 0 && b >= 0 {
      NatToStringInjective(a, b);
    }
  }

  /** `parts.join(sep)`. */
  function Join(parts: seq<string>, sep: string): (r: string)
    ensures |parts| == 1 ==> r == parts[0]
    decreases |parts|
  {
    if |parts| == 0 then ""
    else if |parts| == 1 then parts[0]
    else parts[0] + sep + Join(parts[1..], sep)
  }

  /** `s.split(c)[0]`: the part of `s` before the first `c`, or all of `s`. */
  function BeforeFirst(s: string, c: char): (r: string)
    ensures |r| <= |s| && r == s[..|r|]
    ensures c !in r
    ensures |r| < |s| ==> s[|r|] == c
    decreases |s|
  {
    if |s| == 0 then ""
    else if s[0] == c then ""
    else [s[0]] + BeforeFirst(s[1..], c)
  }
}

=== FILE: types.dfy ===
/** The records the services exchange (types.ts, plus the `Chapter` shape
    built in services/api.ts). Fields the services never read — cover image
    URLs, score, popularity, year — are not carried. */
module Types {
  import opened Basics

  datatype Genre = Genre(name: string)

  /** A catalog entry as the Jikan API returns it. `rating` is read by the
      safety filter although the declared interface omits it, and `genres`
      is guarded against absence there, so both are optional. */
  datatype JikanManga = JikanManga(
    malId: int,
    title: string,
    synopsis: string,
    status: string,
    kind: string,
    genres: Option<seq<Genre>>,
    rating: Option<string>)

  datatype SearchFilters = SearchFilters(genres: seq<int>, status: Option<string>, nsfw: bool)

  /** One chapter of the unified chapter list. */
  datatype Chapter = Chapter(
    id: string,
    volume: Option<string>,
    chapter: string,
    title: Option<string>,
    publishAt: Option<string>,
    lang: Option<string>)

  datatype AuthProvider = Google | Email

  datatype HistoryItem = HistoryItem(
    malId: int,
    chapterId: string,
    timestamp: int,
    title: string,
    chapterNum: string)

  /** The profile kept in local storage. Optional fields are the ones the
      default guest profile leaves undefined. */
  datatype User = User(
    username: string,
    description: string,
    email: Option<string>,
    isLoggedIn: bool,
    joinedAt: Option<string>,
    provider: Option<AuthProvider>,
    isPremium: bool,
    avatar: string,
    nsfwEnabled: bool,
    dataSaver: Option<bool>,
    notifications: Option<bool>,
    favorites: seq<int>,
    history: seq<HistoryItem>)

  datatype Comment = Comment(
    id: string,
    username: string,
    avatar: string,
    text: string,
    timestamp: string,
    likes: int)
}

=== FILE: uri_encoding.dfy ===
/** JavaScript's `encodeURIComponent` (section 19.2.6.5 of ECMA-262), used by
    the allorigins proxy target and by the Comick title search, together with
    its inverse `decodeURIComponent`. Characters are Unicode scalar values, so
    the lone-surrogate error of `encodeURIComponent` cannot arise. */
module UriEncoding {
  import opened Basics

  /** The characters `encodeURIComponent` leaves as they are. */
  predicate IsUnreserved(c: char)
  {
    ('A' <= c <= 'Z') || ('a' <= c <= 'z') || ('0' <= c <= '9') ||
    c == '-' || c == '_' || c == '.' || c == '!' || c == '~' ||
    c == '*' || c == '\'' || c == '(' || c == ')'
  }

  predicate IsByte(b: nat)
  {
    b < 256
  }

  predicate IsContinuation(b: nat)
  {
    0x80 <= b < 0xC0
  }

  /** Upper-case hexadecimal digit, as the encoder writes it. */
  function HexDigit(d: nat): char
    requires d < 16
  {
    if d < 10 then ('0' as int + d) as char else ('A' as int + d - 10) as char
  }

  /** Hexadecimal digit value, either case, as the decoder reads it. */
  function HexValue(c: char): Option<nat>
  {
    if '0' <= c <= '9' then Some(c as int - '0' as int)
    else if 'A' <= c <= 'F' then Some(c as int - 'A' as int + 10)
    else if 'a' <= c <= 'f' then Some(c as int - 'a' as int + 10)
    else None
  }

  lemma HexRoundTrip(d: nat)
    requires d < 16
    ensures HexValue(HexDigit(d)) == Some(d)
  {
  }

  /** The UTF-8 encoding of a scalar value (section 3.9 of the Unicode
      standard, Table 3-6). */
  function Utf8(cp: nat): (bytes: seq<nat>)
    requires cp < 0x11_0000
    ensures 1 <= |bytes| <= 4
    ensures forall i :: 0 <= i < |bytes| ==> IsByte(bytes[i])
  {
    if cp < 0x80 then [cp]
    else if cp < 0x800 then [0xC0 + cp / 64, 0x80 + cp % 64]
    else if cp < 0x1_0000 then [0xE0 + cp / 4096, 0x80 + (cp / 64) % 64, 0x80 + cp % 64]
    else [0xF0 + cp / 262144, 0x80 + (cp / 4096) % 64, 0x80 + (cp / 64) % 64, 0x80 + cp % 64]
  }

  /** `%XY` for one byte. */
  function PercentByte(b: nat): (r: string)
    requires IsByte(b)
    ensures |r| == 3
  {
    ['%', HexDigit(b / 16), HexDigit(b % 16)]
  }

  function PercentBytes(bytes: seq<nat>): (r: string)
    requires forall i :: 0 <= i < |bytes| ==> IsByte(bytes[i])
    ensures |r| == 3 * |bytes|
    decreases |bytes|
  {
    if |bytes| == 0 then "" else PercentByte(bytes[0]) + PercentBytes(bytes[1..])
  }

  function EncodeChar(c: char): (r: string)
    ensures |r| >= 1
  {
    if IsUnreserved(c) then [c] else PercentBytes(Utf8(c as int))
  }

  /** `encodeURIComponent(s)`. */
  function EncodeURIComponent(s: string): (r: string)
    ensures forall i :: 0 <= i < |r| ==> IsUnreserved(r[i]) || r[i] == '%' || IsHexChar(r[i])
    decreases |s|
  {
    if |s| == 0 then ""
    else
      EncodeCharAlphabet(s[0]);
      EncodeChar(s[0]) + EncodeURIComponent(s[1..])
  }

  predicate IsHexChar(c: char)
  {
    ('0' <= c <= '9') || ('A' <= c <= 'F')
  }

  lemma EncodeCharAlphabet(c: char)
    ensures forall i :: 0 <= i < |EncodeChar(c)| ==> IsUnreserved(EncodeChar(c)[i]) || EncodeChar(c)[i] == '%' || IsHexChar(EncodeChar(c)[i])
  {
    if !IsUnreserved(c) {
      PercentBytesAlphabet(Utf8(c as int));
    }
  }

  lemma {:induction false} PercentBytesAlphabet(bytes: seq<nat>)
    requires forall i :: 0 <= i < |bytes| ==> IsByte(bytes[i])
    ensures forall i :: 0 <= i < |PercentBytes(bytes)| ==> PercentBytes(bytes)[i] == '%' || IsHexChar(PercentBytes(bytes)[i])
    decreases |bytes|
  {
    if |bytes| > 0 {
      PercentBytesAlphabet(bytes[1..]);
    }
  }

  // ---------------------------------------------------------------------
  // Decoding

  /** The byte written as `%XY` at the start of `s`, if there is one. */
  function LeadingByte(s: string): (r: Option<nat>)
    ensures r.Some? ==> IsByte(r.value)
  {
    if |s| >= 3 && s[0] == '%' && HexValue(s[1]).Some? && HexValue(s[2]).Some? then
      Some(HexValue(s[1]).value * 16 + HexValue(s[2]).value)
    else None
  }

  /** Reads `count` consecutive `%XY` bytes from the start of `s`. */
  function ReadBytes(s: string, count: nat): (r: Option<seq<nat>>)
    ensures r.Some? ==> |r.value| == count && 3 * count <= |s|
    decreases count
  {
    if count == 0 then Some([])
    else match LeadingByte(s)
      case None => None
      case Some(b) =>
        match ReadBytes(s[3..], count - 1)
        case None => None
        case Some(rest) => Some([b] + rest)
  }

  /** Number of bytes a UTF-8 sequence with this lead byte has; 0 when the
      byte cannot start a sequence. */
  function SequenceLength(lead: nat): nat
  {
    if lead < 0x80 then 1
    else if 0xC0 <= lead < 0xE0 then 2
    else if 0xE0 <= lead < 0xF0 then 3
    else if 0xF0 <= lead < 0xF8 then 4
    else 0
  }

  /** The scalar value a well-shaped UTF-8 sequence spells. */
  function CodePoint(bytes: seq<nat>): int
    requires 1 <= |bytes| <= 4
  {
    var b := seq(|bytes|, i requires 0 <= i < |bytes| => bytes[i] as int);
    if |b| == 1 then b[0]
    else if |b| == 2 then (b[0] - 0xC0) * 64 + (b[1] - 0x80)
    else if |b| == 3 then (b[0] - 0xE0) * 4096 + (b[1] - 0x80) * 64 + (b[2] - 0x80)
    else (b[0] - 0xF0) * 262144 + (b[1] - 0x80) * 4096 + (b[2] - 0x80) * 64 + (b[3] - 0x80)
  }

  /** The least scalar value that needs a sequence of length `n`, so that
      over-long encodings are refused. */
  function MinScalar(n: nat): nat
  {
    if n <= 1 then 0 else if n == 2 then 0x80 else if n == 3 then 0x800 else 0x1_0000
  }

  predicate IsScalar(cp: int)
  {
    (0 <= cp < 0xD800) || (0xE000 <= cp < 0x11_0000)
  }

  /** Decodes one unit at the start of a non-empty `s`: either a literal
      character or one `%`-escaped UTF-8 sequence. Returns the character
      and how many characters of `s` it used; `None` is a `URIError`. */
  function DecodeUnit(s: string): (r: Option<(char, nat)>)
    requires |s| > 0
    ensures r.Some? ==> 1 <= r.value.1 <= |s|
  {
    if s[0] != '%' then Some((s[0], 1))
    else match LeadingByte(s)
      case None => None
      case Some(lead) =>
        var n := SequenceLength(lead);
        if n == 0 then None
        else match ReadBytes(s, n)
          case None => None
          case Some(bytes) =>
            if forall i :: 1 <= i < n ==> IsContinuation(bytes[i]) then
              var cp := CodePoint(bytes);
              if cp >= MinScalar(n) && IsScalar(cp) then Some((cp as char, 3 * n)) else None
            else None
  }

  /** `decodeURIComponent(s)`; `None` stands for the `URIError` it throws. */
  function DecodeURIComponent(s: string): Option<string>
    decreases |s|
  {
    if |s| == 0 then Some("")
    else match DecodeUnit(s)
      case None => None
      case Some((c, k)) =>
        match DecodeURIComponent(s[k..])
        case None => None
        case Some(rest) => Some([c] + rest)
  }

  // ---------------------------------------------------------------------
  // Round trip

  /** UTF-8 of a scalar value is a well-shaped sequence spelling it back. */
  lemma Utf8Shape(cp: nat)
    requires IsScalar(cp)
    ensures SequenceLength(Utf8(cp)[0]) == |Utf8(cp)|
    ensures forall i :: 1 <= i < |Utf8(cp)| ==> IsContinuation(Utf8(cp)[i])
    ensures CodePoint(Utf8(cp)) == cp
    ensures cp >= MinScalar(|Utf8(cp)|)
  {
    if cp < 0x80 {
    } else if cp < 0x800 {
      TwoByteShape(cp);
    } else if cp < 0x1_0000 {
      ThreeByteShape(cp);
    } else {
      FourByteShape(cp);
    }
  }

  lemma TwoByteShape(cp: nat)
    requires 0x80 <= cp < 0x800
    ensures 0xC0 <= 0xC0 + cp / 64 < 0xE0
    ensures (cp / 64) * 64 + cp % 64 == cp
  {
  }

  lemma ThreeByteShape(cp: nat)
    requires 0x800 <= cp < 0x1_0000
    ensures 0xE0 <= 0xE0 + cp / 4096 < 0xF0
    ensures (cp / 4096) * 4096 + ((cp / 64) % 64) * 64 + cp % 64 == cp
  {
    var q := cp / 64;
    assert cp == q * 64 + cp % 64;
    assert q == (q / 64) * 64 + q % 64;
    assert q / 64 == cp / 4096;
  }

  lemma FourByteShape(cp: nat)
    requires 0x1_0000 <= cp < 0x11_0000
    ensures 0xF0 <= 0xF0 + cp / 262144 < 0xF8
    ensures (cp / 262144) * 262144 + ((cp / 4096) % 64) * 4096 + ((cp / 64) % 64) * 64 + cp % 64 == cp
  {
    var q := cp / 64;
    var p := q / 64;
    assert cp == q * 64 + cp % 64;
    assert q == p * 64 + q % 64;
    assert p == (p / 64) * 64 + p % 64;
    assert p == cp / 4096;
    assert p / 64 == cp / 262144;
  }

  lemma ByteRoundTrip(b: nat, t: string)
    requires IsByte(b)
    ensures LeadingByte(PercentByte(b) + t) == Some(b)
  {
    HexRoundTrip(b / 16);
    HexRoundTrip(b % 16);
  }

  lemma {:induction false} ReadBytesRoundTrip(bytes: seq<nat>, t: string)
    requires forall i :: 0 <= i < |bytes| ==> IsByte(bytes[i])
    ensures ReadBytes(PercentBytes(bytes) + t, |bytes|) == Some(bytes)
    decreases |bytes|
  {
    if |bytes| > 0 {
      var s := PercentBytes(bytes) + t;
      assert s == PercentByte(bytes[0]) + (PercentBytes(bytes[1..]) + t);
      ByteRoundTrip(bytes[0], PercentBytes(bytes[1..]) + t);
      assert s[3..] == PercentBytes(bytes[1..]) + t;
      ReadBytesRoundTrip(bytes[1..], t);
      assert [bytes[0]] + bytes[1..] == bytes;
    }
  }

  /** Decoding an encoded character followed by anything yields that
      character and consumes exactly its encoding. */
  lemma DecodeUnitRoundTrip(c: char, t: string)
    ensures DecodeUnit(EncodeChar(c) + t) == Some((c, |EncodeChar(c)|))
  {
    if !IsUnreserved(c) {
      var cp := c as int;
      Utf8Shape(cp);
      DecodeWellShaped(Utf8(cp), t);
      assert (cp as char) == c;
    }
  }

  /** A well-shaped UTF-8 sequence of a scalar value, `%`-escaped, decodes
      to that value and consumes exactly its escapes. */
  lemma DecodeWellShaped(bytes: seq<nat>, t: string)
    requires 1 <= |bytes| <= 4 && forall i :: 0 <= i < |bytes| ==> IsByte(bytes[i])
    requires SequenceLength(bytes[0]) == |bytes|
    requires forall i :: 1 <= i < |bytes| ==> IsContinuation(bytes[i])
    requires CodePoint(bytes) >= MinScalar(|bytes|) && IsScalar(CodePoint(bytes))
    ensures DecodeUnit(PercentBytes(bytes) + t) == Some((CodePoint(bytes) as char, 3 * |bytes|))
  {
    var s := PercentBytes(bytes) + t;
    EscapesReadBack(bytes, t);
    DecodeEscapedUnit(s, bytes);
  }

  /** The escapes of a byte sequence read back as its lead byte and as the
      whole sequence. */
  lemma EscapesReadBack(bytes: seq<nat>, t: string)
    requires 1 <= |bytes| && forall i :: 0 <= i < |bytes| ==> IsByte(bytes[i])
    ensures (PercentBytes(bytes) + t)[0] == '%'
    ensures LeadingByte(PercentBytes(bytes) + t) == Some(bytes[0])
    ensures ReadBytes(PercentBytes(bytes) + t, |bytes|) == Some(bytes)
  {
    var s := PercentBytes(bytes) + t;
    assert s == PercentByte(bytes[0]) + (PercentBytes(bytes[1..]) + t);
    ByteRoundTrip(bytes[0], PercentBytes(bytes[1..]) + t);
    ReadBytesRoundTrip(bytes, t);
  }

  /** A unit whose escapes read back as a well-shaped sequence decodes to
      the scalar value it spells. */
  lemma DecodeEscapedUnit(s: string, bytes: seq<nat>)
    requires 1 <= |bytes| <= 4 && |s| > 0 && s[0] == '%'
    requires LeadingByte(s) == Some(bytes[0]) && ReadBytes(s, |bytes|) == Some(bytes)
    requires SequenceLength(bytes[0]) == |bytes|
    requires forall i :: 1 <= i < |bytes| ==> IsContinuation(bytes[i])
    requires CodePoint(bytes) >= MinScalar(|bytes|) && IsScalar(CodePoint(bytes))
    ensures DecodeUnit(s) == Some((CodePoint(bytes) as char, 3 * |bytes|))
  {
  }

  /** `decodeURIComponent(encodeURIComponent(s)) == s` for every string. */
  lemma {:induction false} DecodeEncodeRoundTrip(s: string)
    ensures DecodeURIComponent(EncodeURIComponent(s)) == Some(s)
    decreases |s|
  {
    if |s| > 0 {
      var e := EncodeURIComponent(s);
      assert e == EncodeChar(s[0]) + EncodeURIComponent(s[1..]);
      DecodeUnitRoundTrip(s[0], EncodeURIComponent(s[1..]));
      assert e[|EncodeChar(s[0])|..] == EncodeURIComponent(s[1..]);
      DecodeEncodeRoundTrip(s[1..]);
      assert [s[0]] + s[1..] == s;
    }
  }

  /** Hence encoding is injective: distinct targets reach the proxy as
      distinct encoded strings. */
  lemma EncodeInjective(a: string, b: string)
    requires EncodeURIComponent(a) == EncodeURIComponent(b)
    ensures a == b
  {
    DecodeEncodeRoundTrip(a);
    DecodeEncodeRoundTrip(b);
  }
}
